=== FILE: README.md ===
# luxury-shop core, modelled in Dafny

This project models the pure logic at the centre of the luxury-shop storefront (a Next.js
and Firebase application) and proves properties of it. It covers six pieces:

- **Shipping-address update** (`Validation`, `AddressBook`, `ProfileActions`).
  - The server action `updateShippingAddress` checks its inputs in a fixed order: admin SDK ready, token present, address id present, token verified, fields valid.
  - It then reconciles the user's address book so that exactly one address is the default, and writes the book back.
  - The reconciliation is a pure function on a sequence of addresses. The store, the token verifier and commit failures are parameters.
  - The fixed messages of the returned form state are named constructors of `ProfileActions.Text`; `ProfileActions.Render` gives each one's exact wording. Messages built at run time (the caught errors) are plain strings.
- **Shopping cart** (`Catalog`, `Cart`).
  - Add, remove, update quantity, clear, item count and total.
  - The migration of a cart read back from browser storage.
- **Product card image** (`ProductCard`): URL sanitising (trim, `["…"]` unwrap, prefix whitelist), the choice of the primary image, and the placeholder fallback.
- **Product documents** (`ProductService`): normalising a raw store document into a product record (the image-list fallback chain and the field defaults), and the two readers built on it.
- **Sign-up and sign-in forms** (`AuthForm`): the zod schemas as issue lists, including the two digit patterns and the password confirmation.
- **Address edit form** (`AddressForm`): the client schema, the submit gating and `getErrorForField`.

Shared pieces:

- `Common`: `Option` and `Result`.
- `JsText`: `String.prototype.trim` with the ECMAScript whitespace set, plus prefix and suffix tests.
- `JsValues`: a JSON-like value type with JavaScript truthiness and `||`.
- `Validation`: zod string checks, which report one issue per failing check, in order, each with its path and message.

Two behaviours of the code are kept as written, although a reader may not expect them:

- The multiple-defaults guard: its comment (`src/app/profile/actions.ts:149-150`) says it keeps only "the one being edited if set to default". When the edited address is not flagged, the code (`src/app/profile/actions.ts:151-155`) flags index 0, whether or not that address was flagged. `AddressBook.ReconcileCollapsesExtraDefaults` states the code's behaviour.
- Setting an address as default drops the submitted street, city, state, zip and country. The `isDefault` branch remaps the old entries (`src/app/profile/actions.ts:133-138`) and never writes the edited address. This is kept as written. `AddressBook.SetDefaultDropsEditExample` exhibits it.

## Model

| member | source | states |
|---|---|---|
| Validation.StringIssues | src/app/profile/actions.ts:11-16 | a zod string field reports no issue exactly when every check holds, never more issues than checks, each on the field's path; which issues and in what order is stated by the lemmas below |
| Validation.IssuesFollowFailingChecks | src/app/profile/actions.ts:11-16 | the issues are exactly one per failing check, in the order the checks are written, each carrying that check's message |
| Validation.FailingIndices | src/app/profile/actions.ts:11-16 | gives the increasing list of failing check indices behind the issues, one issue per index |
| Validation.FailingChecksReported | src/app/profile/actions.ts:11-16 | every failing check is reported on the field with that check's own message |
| Validation.IssuesComeFromFailingChecks | src/app/profile/actions.ts:11-16 | every reported issue carries the message of a check the value fails |
| Validation.FieldIssues | src/app/profile/actions.ts:11-16 | a field value passes exactly when it is a string meeting every check; a non-string is reported on the field's path |
| Validation.BoundsAccept | src/app/profile/actions.ts:12-16 | a `.min(lo).max(hi)` field accepts exactly the strings whose length is within lo..hi |
| ProfileActions.ParseAddress | src/app/profile/actions.ts:11-18 | the schema accepts exactly when all five fields are strings within their bounds; the parsed edit carries those strings and `isDefault` true iff the raw value is "on" or `true`; a rejection carries at least one issue |
| ProfileActions.ServerChecksAreBounds | src/app/profile/actions.ts:11-16 | no schema issue iff street 3..200, city/state/country 1..100 and zip 3..20 characters, all strings |
| ProfileActions.Precheck | src/app/profile/actions.ts:51-93 | the request passes iff admin ready, token present, address id present, token verified and fields valid, and then carries the verified uid, the address id and the parsed edit; a failure is an error state |
| ProfileActions.Commit | src/app/profile/actions.ts:100-184 | the transaction and commit succeed iff the user holds the address and the commit does not throw; an error writes nothing |
| ProfileActions.UpdateShippingAddress | src/app/profile/actions.ts:43-185 | the result is success or error; an error writes nothing; success iff admin ready, token present, address id present, token verified, fields valid, the user holds the address, and the commit succeeds |
| ProfileActions.UpdateCheckOrder | src/app/profile/actions.ts:51-93 | the first failing check (config, token missing, address id missing, invalid token, field errors) decides the answer whatever the later inputs are, and nothing is written |
| ProfileActions.RunTransaction | src/app/profile/actions.ts:100-164 | the transaction succeeds exactly when the verified user's document exists and holds the target address id |
| ProfileActions.UpdateReportsMissingAddress | src/app/profile/actions.ts:113-118 | an absent address id yields the error "Address with ID … not found. Cannot update." and the store is unchanged |
| ProfileActions.UpdateReportsMissingUser | src/app/profile/actions.ts:103-107 | a missing user document yields its "User document not found" message and the store is unchanged |
| ProfileActions.CaughtMessage | src/app/profile/actions.ts:171-183 | a store error is reported as "Firestore Admin SDK error (code) …" with the user and the store's message; a plain error mentioning "User document not found" or "Address with ID" passes through; any other gets the generic failure message |
| ProfileActions.KnownFailuresPassThrough | src/app/profile/actions.ts:103-120 | the two errors the transaction raises itself reach the form word for word |
| ProfileActions.UpdateReportsStoreError | src/app/profile/actions.ts:171-183 | a store error at commit after every check passed is reported with its code and message, and the store is unchanged |
| ProfileActions.UpdateSuccessWrite | src/app/profile/actions.ts:159-169 | a verified request with valid fields for an address the user holds succeeds; it writes only the verified user's `shippingAddresses` (the reconciled book, exactly one default) and `updatedAt`; every other user and field is unchanged |
| AddressBook.IndexOfId | src/app/profile/actions.ts:113 | the index is the first address with the id, and none iff no address has it |
| AddressBook.IndexOfDefaultWithId | src/app/profile/actions.ts:151 | finds the first address with the id that is flagged default, and none iff there is no such address |
| AddressBook.CountDefaults | src/app/profile/actions.ts:148 | the number of flagged addresses is at most the book's length, and equals it exactly when every address is flagged |
| AddressBook.CountZeroIffNoDefault | src/app/profile/actions.ts:144 | `some(isDefault)` is false exactly when the default count is zero |
| AddressBook.CountAtMostOneIff | src/app/profile/actions.ts:148 | `filter(isDefault).length <= 1` exactly when no two addresses are flagged |
| AddressBook.CountOneIffExactlyOne | src/app/profile/actions.ts:144-148 | the count is one exactly when a single address is the default |
| AddressBook.MarkSoleDefault | src/app/profile/actions.ts:135-138 | the chosen index becomes the only default; every field other than the flag is unchanged |
| AddressBook.ApplyEdit | src/app/profile/actions.ts:121-141 | setting default makes the target the sole default and keeps every address's details; clearing writes the submitted fields on the target only |
| AddressBook.RestoreSingleDefault | src/app/profile/actions.ts:143-156 | details are kept; a non-empty book ends with exactly one default; with no default the first address becomes it; a book with one default is untouched |
| AddressBook.Reconcile | src/app/profile/actions.ts:113-156 | error exactly when the id is absent, with the "not found" message; otherwise length, order and ids are kept and exactly one address is the default |
| AddressBook.ReconcileSetDefault | src/app/profile/actions.ts:133-138 | an edit with `isDefault` true makes the target the only default and leaves every address's details as before the edit |
| AddressBook.ReconcileClearDefault | src/app/profile/actions.ts:121-129 | an edit with `isDefault` false writes the submitted fields on the target and leaves the other addresses' details unchanged |
| AddressBook.ReconcileFallbackToFirst | src/app/profile/actions.ts:143-147 | when no other address is default and the edit clears the flag, index 0 becomes the sole default |
| AddressBook.ReconcileKeepsOtherDefault | src/app/profile/actions.ts:139-147 | when another address is the sole default, clearing the target's flag writes exactly the edited address and nothing else |
| AddressBook.ReconcileCollapsesExtraDefaults | src/app/profile/actions.ts:148-155 | in a book with unique ids, when two other addresses are flagged, the guard keeps index 0 as the only default |
| AddressBook.ReconcileGuardInactive | src/app/profile/actions.ts:148-149 | from a book with at most one default, the edit never leaves two defaults, so the guard never fires |
| AddressBook.ReconcileExactlyOneDefault | src/app/profile/actions.ts:133-156 | for any book containing the id, whatever its flags, the result succeeds, has the same length and exactly one default |
| AddressBook.ReconcilePreservesValid | src/app/profile/actions.ts:113-156 | a valid book (at most one default, one if non-empty, unique ids) stays valid |
| AddressBook.ReconcileNoOpEdit | src/app/profile/actions.ts:121-156 | resubmitting an address's own values leaves a valid book unchanged |
| AddressBook.ReconcileIdempotent | src/app/profile/actions.ts:113-156 | submitting the same edit twice gives the same book as submitting it once |
| AddressBook.SeedBook | src/lib/firebase/auth.ts:31-50 | the sign-up book is valid with its one address as the default |
| AddressBook.ApplyAllPreservesValid | src/app/profile/actions.ts:113-156 | every book reachable from a valid book by a sequence of edits is valid |
| AddressBook.FallbackExample | src/app/profile/actions.ts:143-147 | editing the sole default at index 0 to non-default leaves it default |
| AddressBook.SetDefaultDropsEditExample | src/app/profile/actions.ts:133-138 | setting an address as default keeps its old street, city, state, zip and country |
| AddressForm.HandleSubmit | src/components/profile/address-form.tsx:92-138 | no user or no token prevents submission before validation; otherwise the form is submitted iff the client schema reports nothing, and a rejection carries the correction message together with exactly the schema's issues, which the field messages are read from |
| AddressForm.ClientAddressIssues | src/components/profile/address-form.tsx:18-26 | the client schema reports nothing iff the five address fields are within the shared length bounds and the token is non-empty; an `idToken` issue is reported iff the token is empty |
| AddressForm.ClientFieldIssues | src/components/profile/address-form.tsx:18-25 | no address field check reports on `idToken` |
| AddressForm.ValuesFromForm | src/components/profile/address-form.tsx:109-118 | each text field is the submitted entry or the empty string when missing, `isDefault` is true iff the entry is "on", and the token is the session's |
| AddressForm.GetErrorForField | src/components/profile/address-form.tsx:140-143 | the message of the first issue whose path contains the field, and none iff no issue mentions it |
| AddressForm.ClientAgreesWithServer | src/components/profile/address-form.tsx:18-24 | on the five address fields the client schema accepts exactly what the server schema accepts |
| AddressForm.ClientFieldsWithinBounds | src/components/profile/address-form.tsx:18-24 | the client's five field checks accept exactly the lengths the shared bounds allow |
| AddressForm.CheckboxAgreesWithServer | src/components/profile/address-form.tsx:116 | the client's `isDefault` is true iff the checkbox entry is "on", which is the server's preprocessing of the same entry |
| AddressForm.SubmittedFormPassesServer | src/components/profile/address-form.tsx:109-136 | a form the client submits passes the server schema with the same default flag |
| AddressForm.ServerAcceptedFormIsSubmitted | src/components/profile/address-form.tsx:109-136 | with a user and a token, a form the server schema accepts is submitted by the client |
| AddressForm.ShortStreetReported | src/components/profile/address-form.tsx:121-124 | a street shorter than three characters shows "Street address is required (min 3 chars)." under the street field |
| AddressForm.MissingEntryIsFlagged | src/components/profile/address-form.tsx:111-115 | a missing address entry is coerced to "" and always draws an issue shown under that field |
| AuthForm.CountryCodeAccepted | src/components/auth/auth-form.tsx:26 | the country code is accepted iff it is "+" followed by 1 to 3 ASCII digits |
| AuthForm.PhoneNumberAccepted | src/components/auth/auth-form.tsx:27 | the phone number is accepted iff it is 7 to 15 ASCII digits and nothing else |
| AuthForm.SignUpAccepted | src/components/auth/auth-form.tsx:20-36 | sign-up is accepted iff names are non-empty, the email is valid, the password has at least 6 characters and equals the confirmation, both phone patterns match, and the address bounds hold |
| AuthForm.SignUpAddressBounds | src/components/auth/auth-form.tsx:28-32 | the sign-up address fields accept exactly the server schema's bounds |
| AuthForm.MismatchReportedOnConfirmPassword | src/components/auth/auth-form.tsx:33-36 | differing passwords are reported as "Passwords don't match." on the `confirmPassword` path |
| AuthForm.SignInAccepted | src/components/auth/auth-form.tsx:39-42 | sign-in is accepted iff the email is valid and the password is non-empty |
| AuthForm.SignUpIssues | src/components/auth/auth-form.tsx:20-36 | the "Passwords don't match." issue on `confirmPassword` is reported iff the passwords differ, and then it is the last issue |
| AuthForm.SignUpFieldIssues | src/components/auth/auth-form.tsx:20-32 | no field check of the sign-up schema reports on `confirmPassword` |
| AuthForm.SignInIssues | src/components/auth/auth-form.tsx:39-42 | every issue is on `email` or `password`; an email issue is reported iff the email is invalid, a password issue iff the password is empty |
| AuthForm.SignUpSeedsServerValidBook | src/lib/firebase/auth.ts:31-50 | an accepted sign-up seeds a valid book whose address the server's edit schema accepts unchanged |
| Cart.DisplayImageUrl | src/contexts/cart-context.tsx:66-68 | the first product image when present and non-empty, else the placeholder; never empty |
| Cart.IndexOfItem | src/contexts/cart-context.tsx:71 | the first line with the id, and none iff the cart lacks it |
| Cart.AddToCart | src/contexts/cart-context.tsx:65-91 | the product is in the cart afterwards; unique ids and image consistency are preserved; the item count grows by exactly the quantity added |
| Cart.AddExistingProduct | src/contexts/cart-context.tsx:71-84 | adding a present product only raises that line's quantity, in place, and the total grows by price times quantity |
| Cart.TotalAfterRaise | src/contexts/cart-context.tsx:75-77 | raising one line's quantity by q raises the cart total by that line's price times q |
| Cart.AddNewProduct | src/contexts/cart-context.tsx:85-91 | adding a new product appends one line with the quantity and display image, and the total grows by price times quantity |
| Cart.RemoveFromCart | src/contexts/cart-context.tsx:104-110 | exactly the lines with other ids remain, and none has the id |
| Cart.RemoveAbsentIsIdentity | src/contexts/cart-context.tsx:109 | removing an id the cart lacks changes nothing |
| Cart.RemoveKeepsImagesConsistent | src/contexts/cart-context.tsx:109 | every remaining line still shows its product's display image |
| Cart.RemoveKeepsUniqueIds | src/contexts/cart-context.tsx:109 | removal keeps ids unique |
| Cart.RemovePresentLine | src/contexts/cart-context.tsx:109 | removing a present id deletes exactly its line, keeps the others in order, and lowers the count by its quantity |
| Cart.UpdateQuantity | src/contexts/cart-context.tsx:123-133 | a non-positive quantity is removal; otherwise the length is kept and only lines with the id get the new quantity |
| Cart.UpdatePresentLine | src/contexts/cart-context.tsx:128-132 | updating a present line changes only that line's quantity, and the count changes by the difference |
| Cart.ClearCart | src/contexts/cart-context.tsx:135-137 | the cleared cart holds no id, with count and total zero |
| Cart.CountAtLeastLines | src/contexts/cart-context.tsx:149-151 | when every line holds a positive quantity, the item count is at least the number of lines |
| Cart.TotalNonNegative | src/contexts/cart-context.tsx:145-147 | with non-negative prices and quantities the cart total is non-negative |
| Cart.SumsOfConcat | src/contexts/cart-context.tsx:145-151 | count and total of a concatenation are the sums of the parts |
| Cart.SumsOfSplit | src/contexts/cart-context.tsx:145-151 | count and total split around any line |
| Cart.Migrate | src/contexts/cart-context.tsx:43-48 | each stored line keeps its product and quantity, and its image is recomputed from the product |
| Cart.Persist | src/contexts/cart-context.tsx:61 | one stored line per cart line; `PersistThenLoad` is its inverse |
| Cart.LoadCart | src/contexts/cart-context.tsx:35-57 | anything but a stored array loads as the empty cart, and so does an array holding a `null` element, whose image lookup throws into the catch; an array of stored lines loads as one line per stored line, with its product and quantity and the image recomputed from the product |
| Cart.PersistThenLoad | src/contexts/cart-context.tsx:35-63 | saving a cart and loading it back gives the same cart |
| Cart.OperationsKeepImagesConsistent | src/contexts/cart-context.tsx:65-133 | add, remove and update keep every line's image in step with its product |
| ProductCard.SanitizeImageUrl | src/components/products/product-card.tsx:29-57 | null or empty input gives null; a result always starts with "http://", "https://" or "/"; a result exists iff the trimmed input (or the string it wraps) has such a prefix |
| ProductCard.AllowedIsNotWrapped | src/components/products/product-card.tsx:33-51 | text with an allowed prefix never takes the unwrap branch |
| ProductCard.PlainUrlKept | src/components/products/product-card.tsx:31-53 | an unwrapped input with an allowed prefix comes back trimmed and otherwise unchanged |
| ProductCard.SanitizeIgnoresSurroundingWhitespace | src/components/products/product-card.tsx:31 | surrounding whitespace never changes the outcome |
| ProductCard.SanitizeIdempotent | src/components/products/product-card.tsx:29-57 | sanitising a trimmed result again returns it unchanged |
| ProductCard.UnwrappedElementNotRetrimmed | src/components/products/product-card.tsx:33-37 | the element taken out of `["/a.png "]` is returned without a second trim |
| ProductCard.SecondPassTrims | src/components/products/product-card.tsx:31-53 | a second pass over "/a.png " trims it to "/a.png", so sanitising is not idempotent in general |
| ProductCard.RawPrimaryUrl | src/components/products/product-card.tsx:118-130 | the first `imageUrls` entry when there is one, else the first element of a legacy array whose first element is a string, else a legacy string; no candidate iff there is also no legacy string and no legacy array starting with a string |
| ProductCard.ImageSrc | src/components/products/product-card.tsx:132-136 | the rendered source always has an allowed prefix; it is the placeholder after an image error or when sanitising gave null, and the sanitised URL otherwise |
| ProductService.NormalizeImageUrls | src/services/productService.ts:17-30 | an all-strings `imageUrls` is used verbatim, even empty; otherwise a legacy all-strings array or non-empty string; otherwise nothing |
| ProductService.NormalizeProduct | src/services/productService.ts:32-41 | the record keeps the document id; each truthy text field is kept, while a falsy name becomes 'Unknown Product', a falsy description '', a falsy category 'Uncategorized' and a falsy brand or video URL `undefined`; a non-number price becomes 0; the image list is the normalised one; the record is always normal (name and category truthy, optional fields truthy or absent) |
| ProductService.StrArray | src/services/productService.ts:20-21 | the string array holding exactly the given URLs |
| ProductService.NormalizeFixesExactlyNormalRecords | src/services/productService.ts:32-41 | a record stored back and read again is unchanged iff it is normal |
| ProductService.NormalizeIdempotent | src/services/productService.ts:32-41 | normalising a normalised product's document changes nothing |
| ProductService.AsProduct | src/services/productService.ts:41 | the typed product exists iff the text fields are strings and the optional ones strings or absent, and it keeps id, price, images, name and category |
| ProductService.CastSoundIff | src/services/productService.ts:32-41 | the `as Product` cast is honest iff every stored text field is a string or falsy |
| ProductService.FetchAllProducts | src/services/productService.ts:10-48 | one normalised record per document, in order; a failed read gives no records |
| ProductService.FetchProductById | src/services/productService.ts:55-92 | a record iff the read succeeds and the document exists, carrying the requested id |
| ProductService.Collection | src/services/productService.ts:57 | the collection maps exactly the documents' ids |
| ProductService.CollectionHolds | src/services/productService.ts:57-61 | with unique ids each document's data is found under its id |
| ProductService.ByIdAgreesWithAll | src/services/productService.ts:60-83 | fetching by id gives the record the full listing holds for that document |
| ProductService.ByIdMissing | src/services/productService.ts:84-91 | a missing document or a failed read gives null |
| ProductService.CardAndServiceAgreeOnLegacyImage | src/services/productService.ts:24-30 | for a legacy `imageUrl`, the card's fallback picks the image the service lists first |
| JsText.Trim | src/components/products/product-card.tsx:31 | the result is what `trimEnd` leaves of what `trimStart` leaves (so, by their contracts, one slice of the input with only whitespace cut from either side); it has no whitespace at either end, is no longer than the input, and a trimmed input is returned unchanged |
| JsText.TrimStart | src/components/products/product-card.tsx:31 | leading whitespace is exactly what is dropped |
| JsText.TrimEnd | src/components/products/product-card.tsx:31 | trailing whitespace is exactly what is dropped |
| JsValues.Strings | src/services/productService.ts:20-28 | the strings of an all-strings array, element by element |

## Left out

- Firestore transactions, their retries and optimistic concurrency, `verifyIdToken`, `revalidatePath` and server timestamps. These are backend calls. The store is a map of user documents; the verifier is a function parameter; a commit failure is an optional thrown error; the timestamp is an integer parameter.
- React rendering, hooks, dialogs, toasts, `setTimeout`, and localStorage reads and writes. These are UI and I/O. Only the migration map and the parse outcome are kept.
- `JSON.parse` and zod's `.email()`. These are library code, so they are parameters: a parser returning an optional value, and an uninterpreted email predicate.
- Cart.CartTotal: prices and totals are exact reals, not IEEE doubles. Rounding and `toFixed` formatting are left out.
- Cart.LoadCart: a stored array element is a line object or `null`; a number, string or boolean element, which the migration turns into a line without a product, is not modelled.
- Cart.AddToCart: quantities are unbounded integers, not doubles. The default argument `quantityToAdd = 1` is not modelled: every caller in the code passes the quantity.
- ProfileActions.RunTransaction: a store error while reading the user document inside the transaction is not modelled. Only an error at commit is a parameter; a read error would be reported by the same `catch` block.
- JsValues.JsValue: numbers are exact reals, so NaN and the infinities are not represented.
- Validation.StringIssues: string lengths count code points, not UTF-16 code units, so characters outside the Basic Multilingual Plane count once.
- AuthForm.SignUpIssues: the password-mismatch issue is appended whenever the passwords differ. Whether zod runs the refinement when other fields already fail is library behaviour not visible in the code.
- ProfileActions.UpdateShippingAddress: the stored `isDefault?` flag is a boolean, so an absent flag reads as false, as every test in the code treats it.
- The advisor action, the AI flows, the chatbot, the navbar badge, the pages, the footer, the layout, `orderService`, the admin SDK setup and the mock data. These are rendering, hosted model calls, I/O or constants.

=== FILE: address_book.dfy ===
/**
 * A user's shipping addresses and the default-address reconciliation that
 * `updateShippingAddress` performs inside its transaction.
 *
 * A persisted book is meant to hold at most one default (`AtMostOneDefault`), at least one
 * default when it is non-empty (`HasDefault`) and unique ids (`UniqueIds`); `Valid` is all three.
 */
module AddressBook {
  import opened Common

  /** A stored shipping address; an absent `isDefault` reads as `false`. */
  datatype Address = Address(
    id: string,
    street: string,
    city: string,
    state: string,
    zip: string,
    country: string,
    isDefault: bool)

  /** The validated field values of an edit (`updatedAddressData`, with `isDefault || false` applied). */
  datatype AddressEdit = AddressEdit(
    street: string,
    city: string,
    state: string,
    zip: string,
    country: string,
    isDefault: bool)

  type Book = seq<Address>

  // ---------------------------------------------------------------------------
  // Predicates over a book

  predicate HasDefault(book: Book) {
    exists j :: 0 <= j < |book| && book[j].isDefault
  }

  /** `book[k]` is the one and only default address. */
  predicate SoleDefaultAt(book: Book, k: int) {
    && 0 <= k < |book|
    && book[k].isDefault
    && forall j :: 0 <= j < |book| && j != k ==> !book[j].isDefault
  }

  predicate ExactlyOneDefault(book: Book) {
    exists k :: 0 <= k < |book| && SoleDefaultAt(book, k)
  }

  predicate AtMostOneDefault(book: Book) {
    forall i, j :: 0 <= i < |book| && 0 <= j < |book| && book[i].isDefault && book[j].isDefault ==> i == j
  }

  predicate UniqueIds(book: Book) {
    forall i, j :: 0 <= i < |book| && 0 <= j < |book| && book[i].id == book[j].id ==> i == j
  }

  /** The invariants of a persisted book: at most one default, a default when non-empty, unique ids. */
  predicate Valid(book: Book) {
    && AtMostOneDefault(book)
    && (|book| > 0 ==> HasDefault(book))
    && UniqueIds(book)
  }

  /** The two addresses agree on everything except, possibly, the default flag. */
  predicate SameExceptFlag(a: Address, b: Address) {
    a.(isDefault := false) == b.(isDefault := false)
  }

  /** Same length, and position by position the same address up to the default flag. */
  predicate SameDetails(a: Book, b: Book) {
    |a| == |b| && forall j :: 0 <= j < |a| ==> SameExceptFlag(a[j], b[j])
  }

  predicate SameIds(a: Book, b: Book) {
    |a| == |b| && forall j :: 0 <= j < |a| ==> a[j].id == b[j].id
  }

  // ---------------------------------------------------------------------------
  // Counting defaults, as `currentAddresses.filter(addr => addr.isDefault).length` does

  function CountDefaults(book: Book): (r: nat)
    ensures r <= |book|
    ensures r == |book| <==> forall j :: 0 <= j < |book| ==> book[j].isDefault
  {
    if |book| == 0 then 0
    else (if book[0].isDefault then 1 else 0) + CountDefaults(book[1..])
  }

  lemma {:induction false} CountZeroIffNoDefault(book: Book)
    ensures CountDefaults(book) == 0 <==> !HasDefault(book)
  {
    if |book| > 0 {
      CountZeroIffNoDefault(book[1..]);
      if HasDefault(book[1..]) {
        var j :| 0 <= j < |book[1..]| && book[1..][j].isDefault;
        assert book[j + 1].isDefault;
      }
      if HasDefault(book) && !book[0].isDefault {
        var j :| 0 <= j < |book| && book[j].isDefault;
        assert book[1..][j - 1].isDefault;
      }
    }
  }

  lemma {:induction false} CountAtMostOneIff(book: Book)
    ensures CountDefaults(book) <= 1 <==> AtMostOneDefault(book)
  {
    if |book| > 0 {
      var tail := book[1..];
      CountAtMostOneIff(tail);
      CountZeroIffNoDefault(tail);
      assert forall j :: 1 <= j < |book| ==> book[j] == tail[j - 1];
      if book[0].isDefault && HasDefault(tail) {
        var j :| 0 <= j < |tail| && tail[j].isDefault;
        assert book[j + 1].isDefault;
      }
    }
  }

  lemma CountOneIffExactlyOne(book: Book)
    ensures CountDefaults(book) == 1 <==> ExactlyOneDefault(book)
  {
    CountZeroIffNoDefault(book);
    CountAtMostOneIff(book);
    if CountDefaults(book) == 1 {
      var k :| 0 <= k < |book| && book[k].isDefault;
      assert SoleDefaultAt(book, k);
    }
  }

  // ---------------------------------------------------------------------------
  // Searching, as `findIndex` does: the first match, or none

  function IndexOfId(book: Book, id: string): (r: Option<nat>)
    ensures r.None? <==> forall j :: 0 <= j < |book| ==> book[j].id != id
    ensures r.Some? ==> r.value < |book| && book[r.value].id == id
    ensures r.Some? ==> forall j :: 0 <= j < r.value ==> book[j].id != id
  {
    FirstFrom(book, 0, (a: Address) => a.id == id)
  }

  /** `findIndex(addr => addr.id === addressId && addr.isDefault === true)` */
  function IndexOfDefaultWithId(book: Book, id: string): (r: Option<nat>)
    ensures r.None? <==> forall j :: 0 <= j < |book| ==> !(book[j].id == id && book[j].isDefault)
    ensures r.Some? ==> r.value < |book| && book[r.value].id == id && book[r.value].isDefault
    ensures r.Some? ==> forall j :: 0 <= j < r.value ==> !(book[j].id == id && book[j].isDefault)
  {
    FirstFrom(book, 0, (a: Address) => a.id == id && a.isDefault)
  }

  function FirstFrom(book: Book, from: nat, p: Address -> bool): (r: Option<nat>)
    requires from <= |book|
    ensures r.None? <==> forall j :: from <= j < |book| ==> !p(book[j])
    ensures r.Some? ==> from <= r.value < |book| && p(book[r.value])
    ensures r.Some? ==> forall j :: from <= j < r.value ==> !p(book[j])
    decreases |book| - from
  {
    if from == |book| then None
    else if p(book[from]) then Some(from)
    else FirstFrom(book, from + 1, p)
  }

  // ---------------------------------------------------------------------------
  // The reconciliation steps

  /** `{ ...addr, street, city, state, zip, country, isDefault }`: the spread keeps the id. */
  function WithEdit(a: Address, e: AddressEdit): Address {
    Address(a.id, e.street, e.city, e.state, e.zip, e.country, e.isDefault)
  }

  /** `book.map((addr, idx) => ({ ...addr, isDefault: idx === k }))` */
  function MarkSoleDefault(book: Book, k: nat): (r: Book)
    requires k < |book|
    ensures SoleDefaultAt(r, k)
    ensures SameDetails(r, book)
  {
    seq(|book|, j requires 0 <= j < |book| => book[j].(isDefault := j == k))
  }

  /**
   * The branch on the submitted flag. Setting the default re-flags the OLD entries and never
   * writes the edited values; clearing it writes the edited address in place.
   */
  function ApplyEdit(book: Book, i: nat, e: AddressEdit): (r: Book)
    requires i < |book|
    ensures SameIds(r, book)
    ensures e.isDefault ==> SoleDefaultAt(r, i) && SameDetails(r, book)
    ensures !e.isDefault ==> r[i] == WithEdit(book[i], e)
    ensures !e.isDefault ==> forall j :: 0 <= j < |book| && j != i ==> r[j] == book[j]
  {
    if e.isDefault then MarkSoleDefault(book, i) else book[i := WithEdit(book[i], e)]
  }

  /**
   * The post-edit repair: with no default the first address becomes default; with more than
   * one, only the edited address (if it is flagged) or else index 0 keeps the flag.
   */
  function RestoreSingleDefault(book: Book, id: string): (r: Book)
    ensures SameDetails(r, book)
    ensures |book| > 0 ==> ExactlyOneDefault(r)
    ensures !HasDefault(book) && |book| > 0 ==> SoleDefaultAt(r, 0)
    ensures AtMostOneDefault(book) && HasDefault(book) ==> r == book
  {
    CountZeroIffNoDefault(book);
    CountOneIffExactlyOne(book);
    CountAtMostOneIff(book);
    if !HasDefault(book) && |book| > 0 then
      var r := book[0 := book[0].(isDefault := true)];
      assert SoleDefaultAt(r, 0);
      r
    else if |book| > 0 && CountDefaults(book) > 1 then
      var k := IndexOfDefaultWithId(book, id).GetOr(0);
      MarkSoleDefault(book, k)
    else
      book
  }

  function AddressNotFoundMessage(id: string): string {
    "Address with ID " + id + " not found. Cannot update."
  }

  /**
   * The list `updateShippingAddress` persists for an edit of address `id`, or the
   * not-found error its transaction throws.
   */
  function Reconcile(book: Book, id: string, e: AddressEdit): (r: Result<Book, string>)
    ensures r.Err? <==> forall j :: 0 <= j < |book| ==> book[j].id != id
    ensures r.Err? ==> r.error == AddressNotFoundMessage(id)
    ensures r.Ok? ==> SameIds(r.value, book) && ExactlyOneDefault(r.value)
  {
    match IndexOfId(book, id)
    case None => Err(AddressNotFoundMessage(id))
    case Some(i) => Ok(RestoreSingleDefault(ApplyEdit(book, i, e), id))
  }

  // ---------------------------------------------------------------------------
  // Properties of the reconciliation

  /** Setting the default: the target becomes the sole default and every address keeps its pre-edit details. */
  lemma ReconcileSetDefault(book: Book, id: string, e: AddressEdit, i: nat)
    requires e.isDefault
    requires IndexOfId(book, id) == Some(i)
    ensures Reconcile(book, id, e).Ok?
    ensures SoleDefaultAt(Reconcile(book, id, e).value, i)
    ensures SameDetails(Reconcile(book, id, e).value, book)
  {
    var edited := ApplyEdit(book, i, e);
    CountOneIffExactlyOne(edited);
    CountAtMostOneIff(edited);
    CountZeroIffNoDefault(edited);
    assert HasDefault(edited) by { assert edited[i].isDefault; }
  }

  /**
   * Clearing the default: the target carries the submitted values, every other address keeps
   * its details, and the flags follow the fallback rules below.
   */
  lemma ReconcileClearDefault(book: Book, id: string, e: AddressEdit, i: nat)
    requires !e.isDefault
    requires IndexOfId(book, id) == Some(i)
    ensures Reconcile(book, id, e).Ok?
    ensures SameDetails(Reconcile(book, id, e).value, book[i := WithEdit(book[i], e)])
    ensures SameExceptFlag(Reconcile(book, id, e).value[i], WithEdit(book[i], e))
    ensures forall j :: 0 <= j < |book| && j != i ==> SameExceptFlag(Reconcile(book, id, e).value[j], book[j])
  {
  }

  /** With no other default, the first address becomes the default (editing the sole default at index 0 keeps it). */
  lemma ReconcileFallbackToFirst(book: Book, id: string, e: AddressEdit, i: nat)
    requires !e.isDefault
    requires IndexOfId(book, id) == Some(i)
    requires forall j :: 0 <= j < |book| && j != i ==> !book[j].isDefault
    ensures SoleDefaultAt(Reconcile(book, id, e).value, 0)
  {
    var edited := ApplyEdit(book, i, e);
    assert !HasDefault(edited);
  }

  /** With exactly one other default, the flags are untouched and only the edited address changes. */
  lemma ReconcileKeepsOtherDefault(book: Book, id: string, e: AddressEdit, i: nat, k: nat)
    requires !e.isDefault
    requires IndexOfId(book, id) == Some(i)
    requires k != i && SoleDefaultAt(book[i := book[i].(isDefault := false)], k)
    ensures Reconcile(book, id, e) == Ok(book[i := WithEdit(book[i], e)])
  {
    var edited := ApplyEdit(book, i, e);
    var cleared := book[i := book[i].(isDefault := false)];
    assert forall j :: 0 <= j < |edited| ==> edited[j].isDefault == cleared[j].isDefault;
    assert edited[k].isDefault;
    assert AtMostOneDefault(edited);
  }

  /**
   * Defaults left over from a corrupt stored book collapse onto index 0 when ids are unique:
   * the edited address is not flagged, so the guard never finds it.
   */
  lemma ReconcileCollapsesExtraDefaults(book: Book, id: string, e: AddressEdit, i: nat, k1: nat, k2: nat)
    requires !e.isDefault
    requires UniqueIds(book)
    requires IndexOfId(book, id) == Some(i)
    requires k1 < |book| && k2 < |book| && k1 != k2 && k1 != i && k2 != i
    requires book[k1].isDefault && book[k2].isDefault
    ensures SoleDefaultAt(Reconcile(book, id, e).value, 0)
  {
    var edited := ApplyEdit(book, i, e);
    CountAtMostOneIff(edited);
    CountZeroIffNoDefault(edited);
    assert edited[k1].isDefault && edited[k2].isDefault;
    assert IndexOfDefaultWithId(edited, id).None?;
  }

  /** On a book that already has at most one default, the multiple-defaults guard never fires. */
  lemma ReconcileGuardInactive(book: Book, id: string, e: AddressEdit, i: nat)
    requires AtMostOneDefault(book)
    requires IndexOfId(book, id) == Some(i)
    ensures CountDefaults(ApplyEdit(book, i, e)) <= 1
  {
    var edited := ApplyEdit(book, i, e);
    if !e.isDefault {
      assert forall j :: 0 <= j < |edited| && edited[j].isDefault ==> j != i && book[j].isDefault;
      assert AtMostOneDefault(edited);
    }
    CountAtMostOneIff(edited);
  }

  /** For every book holding the target, whatever its flags, the result has exactly one default and the same ids. */
  lemma ReconcileExactlyOneDefault(book: Book, id: string, e: AddressEdit)
    requires exists j :: 0 <= j < |book| && book[j].id == id
    ensures Reconcile(book, id, e).Ok?
    ensures |Reconcile(book, id, e).value| == |book|
    ensures ExactlyOneDefault(Reconcile(book, id, e).value)
  {
  }

  /** A valid book stays valid: `AtMostOneDefault`, `HasDefault` and `UniqueIds` are preserved. */
  lemma ReconcilePreservesValid(book: Book, id: string, e: AddressEdit)
    requires Valid(book)
    requires Reconcile(book, id, e).Ok?
    ensures Valid(Reconcile(book, id, e).value)
  {
    var r := Reconcile(book, id, e).value;
    var k :| 0 <= k < |r| && SoleDefaultAt(r, k);
    assert HasDefault(r) by { assert r[k].isDefault; }
    assert forall a, b :: 0 <= a < |r| && 0 <= b < |r| && r[a].id == r[b].id ==> book[a].id == book[b].id;
  }

  /** Re-submitting an address's own values and flag on a valid book writes back the same book. */
  lemma ReconcileNoOpEdit(book: Book, id: string, i: nat)
    requires Valid(book)
    requires IndexOfId(book, id) == Some(i)
    ensures var a := book[i];
      Reconcile(book, id, AddressEdit(a.street, a.city, a.state, a.zip, a.country, a.isDefault)) == Ok(book)
  {
    var a := book[i];
    var e := AddressEdit(a.street, a.city, a.state, a.zip, a.country, a.isDefault);
    assert WithEdit(a, e) == a;
    var edited := ApplyEdit(book, i, e);
    if e.isDefault {
      assert edited == book;
    } else {
      assert edited == book;
      var k :| 0 <= k < |book| && book[k].isDefault;
    }
  }

  lemma ExactlyOneIsAtMostOneAndSome(book: Book)
    requires ExactlyOneDefault(book)
    ensures AtMostOneDefault(book) && HasDefault(book)
  {
    var k :| 0 <= k < |book| && SoleDefaultAt(book, k);
    assert book[k].isDefault;
  }

  /** Applying the same edit twice persists the same book as applying it once. */
  lemma ReconcileIdempotent(book: Book, id: string, e: AddressEdit)
    requires exists j :: 0 <= j < |book| && book[j].id == id
    ensures var once := Reconcile(book, id, e).value;
      Reconcile(once, id, e) == Ok(once)
  {
    var i := IndexOfId(book, id).value;
    var once := Reconcile(book, id, e).value;
    assert IndexOfId(once, id) == Some(i);
    if e.isDefault {
      IdempotentWhenSetting(book, id, e, i);
    } else {
      IdempotentWhenClearing(book, id, e, i);
    }
  }

  lemma IdempotentWhenSetting(book: Book, id: string, e: AddressEdit, i: nat)
    requires e.isDefault
    requires IndexOfId(book, id) == Some(i)
    ensures var once := Reconcile(book, id, e).value;
      RestoreSingleDefault(ApplyEdit(once, i, e), id) == once
  {
    ReconcileSetDefault(book, id, e, i);
    var once := Reconcile(book, id, e).value;
    var again := ApplyEdit(once, i, e);
    assert forall j :: 0 <= j < |once| ==> again[j] == once[j];
    assert again == once;
    ExactlyOneIsAtMostOneAndSome(once);
  }

  lemma IdempotentWhenClearing(book: Book, id: string, e: AddressEdit, i: nat)
    requires !e.isDefault
    requires IndexOfId(book, id) == Some(i)
    ensures var once := Reconcile(book, id, e).value;
      RestoreSingleDefault(ApplyEdit(once, i, e), id) == once
  {
    var edited := ApplyEdit(book, i, e);
    var once := Reconcile(book, id, e).value;
    assert once == RestoreSingleDefault(edited, id);
    var again := ApplyEdit(once, i, e);
    assert SameExceptFlag(once[i], edited[i]);
    assert again[i] == edited[i];
    assert forall j :: 0 <= j < |once| && j != i ==> again[j] == once[j];
    if once[i].isDefault {
      // the edited address is unflagged, so only a repair that flags index 0 can flag it
      RestoreFlagsIndexZero(edited, id, i);
      assert i == 0;
      assert !HasDefault(again);
      assert again[0 := again[0].(isDefault := true)] == once;
    } else {
      assert again[i] == once[i];
      assert again == once;
      ExactlyOneIsAtMostOneAndSome(once);
    }
  }

  /** If the repair flags an address whose id was looked up and found unflagged, that address is at index 0. */
  lemma RestoreFlagsIndexZero(edited: Book, id: string, i: nat)
    requires i < |edited| && !edited[i].isDefault
    requires IndexOfId(edited, id) == Some(i)
    requires RestoreSingleDefault(edited, id)[i].isDefault
    ensures i == 0
  {
    var r := RestoreSingleDefault(edited, id);
    CountZeroIffNoDefault(edited);
    if !(!HasDefault(edited) && |edited| > 0) && CountDefaults(edited) > 1 {
      var k := IndexOfDefaultWithId(edited, id).GetOr(0);
      assert r == MarkSoleDefault(edited, k);
      assert SoleDefaultAt(r, k);
    }
  }

  // ---------------------------------------------------------------------------
  // The seeded book and the books reachable from it

  /** The book written at sign-up: the sign-up address alone, as the default. */
  function SeedBook(id: string, street: string, city: string, state: string, zip: string, country: string): (r: Book)
    ensures Valid(r) && SoleDefaultAt(r, 0)
  {
    var r := [Address(id, street, city, state, zip, country, true)];
    assert r[0].isDefault;
    r
  }

  /** One edit request: the target id and the validated values. */
  datatype EditRequest = EditRequest(id: string, edit: AddressEdit)

  /** Applies edits in turn; a failed edit writes nothing. */
  function ApplyAll(book: Book, edits: seq<EditRequest>): Book
    decreases |edits|
  {
    if |edits| == 0 then book
    else
      var next := match Reconcile(book, edits[0].id, edits[0].edit)
        case Ok(b) => b
        case Err(_) => book;
      ApplyAll(next, edits[1..])
  }

  /** Every book reachable from a valid one by a run of edits is valid. */
  lemma {:induction false} ApplyAllPreservesValid(book: Book, edits: seq<EditRequest>)
    requires Valid(book)
    ensures Valid(ApplyAll(book, edits))
    decreases |edits|
  {
    if |edits| > 0 {
      var r := Reconcile(book, edits[0].id, edits[0].edit);
      if r.Ok? {
        ReconcilePreservesValid(book, edits[0].id, edits[0].edit);
      }
      var next := if r.Ok? then r.value else book;
      ApplyAllPreservesValid(next, edits[1..]);
    }
  }

  /** Concrete instance: [A (default), B, C] with A edited to non-default keeps A as default, with A's new values. */
  lemma FallbackExample()
    ensures
      var a := Address("a", "1 Main St", "Springfield", "IL", "62701", "USA", true);
      var b := Address("b", "2 Oak Ave", "Portland", "OR", "97201", "USA", false);
      var c := Address("c", "3 Pine Rd", "Austin", "TX", "73301", "USA", false);
      var e := AddressEdit("9 Elm St", "Springfield", "IL", "62701", "USA", false);
      Reconcile([a, b, c], "a", e) == Ok([Address("a", "9 Elm St", "Springfield", "IL", "62701", "USA", true), b, c])
  {
    var a := Address("a", "1 Main St", "Springfield", "IL", "62701", "USA", true);
    var b := Address("b", "2 Oak Ave", "Portland", "OR", "97201", "USA", false);
    var c := Address("c", "3 Pine Rd", "Austin", "TX", "73301", "USA", false);
    var e := AddressEdit("9 Elm St", "Springfield", "IL", "62701", "USA", false);
    assert IndexOfId([a, b, c], "a") == Some(0);
    ReconcileFallbackToFirst([a, b, c], "a", e, 0);
    var edited := ApplyEdit([a, b, c], 0, e);
    assert edited == [WithEdit(a, e), b, c];
    assert !HasDefault(edited);
    assert Reconcile([a, b, c], "a", e) == Ok(RestoreSingleDefault(edited, "a"));
    assert RestoreSingleDefault(edited, "a") == [WithEdit(a, e).(isDefault := true), b, c];
  }

  /** Concrete instance of the dropped edit: making B the default persists B's old street. */
  lemma SetDefaultDropsEditExample()
    ensures
      var a := Address("a", "1 Main St", "Springfield", "IL", "62701", "USA", true);
      var b := Address("b", "2 Oak Ave", "Portland", "OR", "97201", "USA", false);
      var e := AddressEdit("7 New Blvd", "Seattle", "WA", "98101", "USA", true);
      Reconcile([a, b], "b", e) == Ok([a.(isDefault := false), b.(isDefault := true)])
  {
    var a := Address("a", "1 Main St", "Springfield", "IL", "62701", "USA", true);
    var b := Address("b", "2 Oak Ave", "Portland", "OR", "97201", "USA", false);
    var e := AddressEdit("7 New Blvd", "Seattle", "WA", "98101", "USA", true);
    assert [a, b][0].id != "b";
    assert FirstFrom([a, b], 1, (x: Address) => x.id == "b") == Some(1);
    assert IndexOfId([a, b], "b") == Some(1);
    var r := Reconcile([a, b], "b", e).value;
    ReconcileSetDefault([a, b], "b", e, 1);
    assert r == [a.(isDefault := false), b.(isDefault := true)];
  }
}

=== FILE: address_form.dfy ===
/**
 * The client-side address edit form: its schema, the gating of `handleSubmit`, and the lookup
 * of the message shown under each field.
 */
module AddressForm {
  import opened Common
  import opened JsValues
  import opened Validation
  import opened ProfileActions

  /** `ClientAddressFormValues` */
  datatype ClientAddressValues = ClientAddressValues(
    street: string,
    city: string,
    state: string,
    zip: string,
    country: string,
    isDefault: bool,
    idToken: string)

  const ClientStreetChecks: seq<Check> := [MinLength(3, "Street address is required (min 3 chars)."), Max(200)]
  const ClientCityChecks: seq<Check> := [MinLength(1, "City is required."), Max(100)]
  const ClientStateChecks: seq<Check> := [MinLength(1, "State/Province is required."), Max(100)]
  const ClientZipChecks: seq<Check> := [MinLength(3, "ZIP/Postal code is required."), Max(20)]
  const ClientCountryChecks: seq<Check> := [MinLength(1, "Country is required."), Max(100)]
  const ClientIdTokenChecks: seq<Check> := [MinLength(1, "Authentication token is required.")]

  /** The issues of the five address text fields under `ClientAddressSchema`. */
  function ClientFieldIssues(street: string, city: string, state: string, zip: string, country: string): (r: seq<Issue>)
    ensures forall k :: 0 <= k < |r| ==> r[k].path != ["idToken"]
  {
    StringIssues("street", street, ClientStreetChecks)
    + StringIssues("city", city, ClientCityChecks)
    + StringIssues("state", state, ClientStateChecks)
    + StringIssues("zip", zip, ClientZipChecks)
    + StringIssues("country", country, ClientCountryChecks)
  }

  /** `ClientAddressSchema.safeParse(values)`: `isDefault` is always a boolean here and never fails. */
  function ClientAddressIssues(v: ClientAddressValues): (r: seq<Issue>)
    ensures r == [] <==> AddressBoundsHold(v.street, v.city, v.state, v.zip, v.country) && v.idToken != ""
    ensures ReportedOn(r, ["idToken"]) <==> v.idToken == ""
  {
    var f := ClientFieldIssues(v.street, v.city, v.state, v.zip, v.country);
    ClientFieldsWithinBounds(v.street, v.city, v.state, v.zip, v.country);
    var t := StringIssues("idToken", v.idToken, ClientIdTokenChecks);
    assert t == [] <==> Holds(ClientIdTokenChecks[0], v.idToken);
    ReportedOnConcat(f, t, ["idToken"]);
    ReportedOnOwnField("idToken", v.idToken, ClientIdTokenChecks);
    f + t
  }

  /** `formData.get(name) as string || ''`: a missing entry becomes the empty string. */
  function Coerce(form: FormData, name: string): string {
    if name in form then form[name] else ""
  }

  /** A text value read from the form: the submitted entry, or the empty string when it is missing. */
  predicate FromEntry(form: FormData, name: string, value: string) {
    (name in form ==> value == form[name]) && (name !in form ==> value == "")
  }

  /** `dataToValidate`, built from the form and the session token. */
  function ValuesFromForm(form: FormData, idToken: string): (r: ClientAddressValues)
    ensures FromEntry(form, "street", r.street) && FromEntry(form, "city", r.city) && FromEntry(form, "state", r.state)
    ensures FromEntry(form, "zip", r.zip) && FromEntry(form, "country", r.country)
    ensures r.isDefault <==> "isDefault" in form && form["isDefault"] == "on"
    ensures r.idToken == idToken
  {
    ClientAddressValues(
      Coerce(form, "street"), Coerce(form, "city"), Coerce(form, "state"), Coerce(form, "zip"),
      Coerce(form, "country"), FormGet(form, "isDefault") == Str("on"), idToken)
  }

  /** What `handleSubmit` does: prevent the submission (with a general error and field issues) or let it through. */
  datatype SubmitOutcome = Prevented(generalError: string, issues: seq<Issue>) | Submitted(values: ClientAddressValues)

  const NotLoggedInMessage: string := "You must be logged in to update an address."
  const TokenNotReadyMessage: string := "Authentication token is not ready. Please wait a moment and try again."
  const CorrectFieldsMessage: string := "Please correct the highlighted fields before saving."

  /** `handleSubmit`, with the signed-in user and the fetched token (null or a string) as inputs. */
  function HandleSubmit(loggedIn: bool, idToken: Option<string>, form: FormData): (r: SubmitOutcome)
    ensures !loggedIn ==> r == Prevented(NotLoggedInMessage, [])
    ensures loggedIn && (idToken.None? || idToken.value == "") ==> r == Prevented(TokenNotReadyMessage, [])
    ensures r.Submitted? <==>
      loggedIn && idToken.Some? && idToken.value != ""
      && ClientAddressIssues(ValuesFromForm(form, idToken.value)) == []
    ensures r.Prevented? && r.issues != [] ==> r.generalError == CorrectFieldsMessage
    ensures loggedIn && idToken.Some? && idToken.value != "" && r.Prevented? ==>
      r == Prevented(CorrectFieldsMessage, ClientAddressIssues(ValuesFromForm(form, idToken.value)))
  {
    if !loggedIn then Prevented(NotLoggedInMessage, [])
    else if idToken.None? || idToken.value == "" then Prevented(TokenNotReadyMessage, [])
    else
      var values := ValuesFromForm(form, idToken.value);
      var issues := ClientAddressIssues(values);
      if issues == [] then Submitted(values) else Prevented(CorrectFieldsMessage, issues)
  }

  /** `getErrorForField`: the message of the first issue whose path mentions the field. */
  function GetErrorForField(issues: seq<Issue>, field: string): (r: Option<string>)
    ensures r.None? <==> forall i :: 0 <= i < |issues| ==> field !in issues[i].path
    ensures r.Some? ==>
      exists i :: 0 <= i < |issues| && field in issues[i].path && issues[i].message == r.value
                  && forall j :: 0 <= j < i ==> field !in issues[j].path
  {
    match FirstIssueFor(issues, field, 0)
    case None => None
    case Some(i) => Some(issues[i].message)
  }

  function FirstIssueFor(issues: seq<Issue>, field: string, from: nat): (r: Option<nat>)
    requires from <= |issues|
    ensures r.None? <==> forall i :: from <= i < |issues| ==> field !in issues[i].path
    ensures r.Some? ==> from <= r.value < |issues| && field in issues[r.value].path
    ensures r.Some? ==> forall j :: from <= j < r.value ==> field !in issues[j].path
    decreases |issues| - from
  {
    if from == |issues| then None
    else if field in issues[from].path then Some(from)
    else FirstIssueFor(issues, field, from + 1)
  }

  // ---------------------------------------------------------------------------
  // Agreement with the server

  /** On the five address fields the client schema accepts exactly what the server schema accepts. */
  lemma ClientAgreesWithServer(street: string, city: string, state: string, zip: string, country: string, isDefault: JsValue)
    ensures ClientFieldIssues(street, city, state, zip, country) == []
      <==> ParseAddress(RawAddress(Str(street), Str(city), Str(state), Str(zip), Str(country), isDefault)).Ok?
  {
    BoundsAccept("street", street, 3, ClientStreetChecks[0].message, 200);
    BoundsAccept("city", city, 1, ClientCityChecks[0].message, 100);
    BoundsAccept("state", state, 1, ClientStateChecks[0].message, 100);
    BoundsAccept("zip", zip, 3, ClientZipChecks[0].message, 20);
    BoundsAccept("country", country, 1, ClientCountryChecks[0].message, 100);
  }

  /** The client's five field checks accept exactly the lengths every address schema allows. */
  lemma ClientFieldsWithinBounds(street: string, city: string, state: string, zip: string, country: string)
    ensures ClientFieldIssues(street, city, state, zip, country) == [] <==> AddressBoundsHold(street, city, state, zip, country)
  {
    BoundsAccept("street", street, 3, ClientStreetChecks[0].message, 200);
    BoundsAccept("city", city, 1, ClientCityChecks[0].message, 100);
    BoundsAccept("state", state, 1, ClientStateChecks[0].message, 100);
    BoundsAccept("zip", zip, 3, ClientZipChecks[0].message, 20);
    BoundsAccept("country", country, 1, ClientCountryChecks[0].message, 100);
  }

  /** The checkbox reads as checked on the client exactly when the server's preprocessing makes it `true`. */
  lemma CheckboxAgreesWithServer(form: FormData, idToken: string)
    ensures ValuesFromForm(form, idToken).isDefault == PreprocessIsDefault(FormGet(form, "isDefault"))
    ensures ValuesFromForm(form, idToken).isDefault <==> "isDefault" in form && form["isDefault"] == "on"
  {
  }

  /** A form the client lets through is one the server's schema accepts, with the same default flag. */
  lemma SubmittedFormPassesServer(loggedIn: bool, idToken: Option<string>, form: FormData)
    requires HandleSubmit(loggedIn, idToken, form).Submitted?
    ensures ParseAddress(RawFromForm(form)).Ok?
    ensures ParseAddress(RawFromForm(form)).value.isDefault == HandleSubmit(loggedIn, idToken, form).values.isDefault
  {
    var v := ValuesFromForm(form, idToken.value);
    assert ClientFieldIssues(v.street, v.city, v.state, v.zip, v.country) == [];
    ClientAgreesWithServer(v.street, v.city, v.state, v.zip, v.country, FormGet(form, "isDefault"));
    assert "street" in form && "city" in form && "state" in form && "zip" in form && "country" in form;
    assert RawFromForm(form) == RawAddress(Str(v.street), Str(v.city), Str(v.state), Str(v.zip), Str(v.country), FormGet(form, "isDefault"));
  }

  /** A missing address entry is coerced to "" and always draws an issue shown under that field. */
  lemma MissingEntryIsFlagged(idToken: string, form: FormData, field: string)
    requires idToken != ""
    requires field in {"street", "city", "state", "zip", "country"} && field !in form
    ensures HandleSubmit(true, Some(idToken), form).Prevented?
    ensures GetErrorForField(HandleSubmit(true, Some(idToken), form).issues, field).Some?
  {
    var v := ValuesFromForm(form, idToken);
    var f := ClientFieldIssues(v.street, v.city, v.state, v.zip, v.country);
    var t := StringIssues("idToken", v.idToken, ClientIdTokenChecks);
    var k := EmptyFieldIssue(v.street, v.city, v.state, v.zip, v.country, field);
    assert ClientAddressIssues(v) == f + t;
    assert (f + t)[k] == f[k];
    assert field in ClientAddressIssues(v)[k].path;
  }

  /** An empty address field is reported: some issue of the client's field checks is on its path. */
  lemma EmptyFieldIssue(street: string, city: string, state: string, zip: string, country: string, field: string)
    returns (k: nat)
    requires field in {"street", "city", "state", "zip", "country"}
    requires field == "street" ==> street == ""
    requires field == "city" ==> city == ""
    requires field == "state" ==> state == ""
    requires field == "zip" ==> zip == ""
    requires field == "country" ==> country == ""
    ensures var f := ClientFieldIssues(street, city, state, zip, country); k < |f| && f[k].path == [field]
  {
    var s := StringIssues("street", street, ClientStreetChecks);
    var c := StringIssues("city", city, ClientCityChecks);
    var st := StringIssues("state", state, ClientStateChecks);
    var z := StringIssues("zip", zip, ClientZipChecks);
    var co := StringIssues("country", country, ClientCountryChecks);
    assert ClientFieldIssues(street, city, state, zip, country) == s + c + st + z + co;
    if field == "street" {
      assert !Holds(ClientStreetChecks[0], street);
      k := 0;
    } else if field == "city" {
      assert !Holds(ClientCityChecks[0], city);
      k := |s|;
    } else if field == "state" {
      assert !Holds(ClientStateChecks[0], state);
      k := |s| + |c|;
    } else if field == "zip" {
      assert !Holds(ClientZipChecks[0], zip);
      k := |s| + |c| + |st|;
    } else {
      assert !Holds(ClientCountryChecks[0], country);
      k := |s| + |c| + |st| + |z|;
    }
  }

  /** With a user and a token, a form the server's schema accepts is never held back by the client. */
  lemma ServerAcceptedFormIsSubmitted(idToken: string, form: FormData)
    requires idToken != "" && ParseAddress(RawFromForm(form)).Ok?
    ensures HandleSubmit(true, Some(idToken), form).Submitted?
  {
    var raw := RawFromForm(form);
    assert raw.street.Str? && raw.city.Str? && raw.state.Str? && raw.zip.Str? && raw.country.Str?;
    assert "street" in form && "city" in form && "state" in form && "zip" in form && "country" in form;
    var v := ValuesFromForm(form, idToken);
    assert v.street == raw.street.s && v.city == raw.city.s && v.state == raw.state.s;
    assert v.zip == raw.zip.s && v.country == raw.country.s;
    assert ClientAddressIssues(v) == [];
  }

  /** A street shorter than three characters is shown the client schema's street message under the field. */
  lemma ShortStreetReported(idToken: string, form: FormData)
    requires idToken != "" && "street" in form && |form["street"]| < 3
    ensures GetErrorForField(HandleSubmit(true, Some(idToken), form).issues, "street")
      == Some("Street address is required (min 3 chars).")
  {
    var v := ValuesFromForm(form, idToken);
    var s := StringIssues("street", v.street, ClientStreetChecks);
    assert !Holds(ClientStreetChecks[0], v.street);
    assert s[0] == Issue(["street"], "Street address is required (min 3 chars).");
    var issues := ClientAddressIssues(v);
    assert issues[0] == s[0];
    assert HandleSubmit(true, Some(idToken), form) == Prevented(CorrectFieldsMessage, issues);
    assert "street" in issues[0].path;
  }
}

=== FILE: auth_form.dfy ===
/**
 * The sign-up and sign-in schemas of the authentication form, and the address book a
 * successful sign-up seeds. Email syntax is zod's `.email()`, taken as the parameter `isEmail`.
 */
module AuthForm {
  import opened Common
  import opened JsText
  import opened JsValues
  import opened Validation
  import opened AddressBook
  import opened ProfileActions

  /** `SignUpFormValues` */
  datatype SignUpValues = SignUpValues(
    firstName: string,
    lastName: string,
    email: string,
    password: string,
    confirmPassword: string,
    phoneCountryCode: string,
    phoneNumber: string,
    street: string,
    city: string,
    state: string,
    zip: string,
    country: string)

  /** `SignInFormValues` */
  datatype SignInValues = SignInValues(email: string, password: string)

  /** `/^\+\d{1,3}$/` */
  const CountryCodeRun: DigitRun := DigitRun("+", 1, 3)
  /** `/^\d{7,15}$/` */
  const PhoneNumberRun: DigitRun := DigitRun("", 7, 15)

  const FirstNameChecks: seq<Check> := [MinLength(1, "First name is required.")]
  const LastNameChecks: seq<Check> := [MinLength(1, "Last name is required.")]
  const SignUpPasswordChecks: seq<Check> := [MinLength(6, "Password must be at least 6 characters.")]
  const CountryCodeChecks: seq<Check> :=
    [MinLength(1, "Country code is required."), Pattern(CountryCodeRun, "Invalid country code format (e.g. +1)")]
  const PhoneNumberChecks: seq<Check> :=
    [MinLength(7, "Phone number must be at least 7 digits."), Pattern(PhoneNumberRun, "Phone number must contain only digits.")]
  const SignUpStreetChecks: seq<Check> := [MinLength(3, "Street address is required (min 3 chars)."), Max(200)]
  const SignUpCityChecks: seq<Check> := [MinLength(1, "City is required."), Max(100)]
  const SignUpStateChecks: seq<Check> := [MinLength(1, "State/Province is required."), Max(100)]
  const SignUpZipChecks: seq<Check> := [MinLength(3, "ZIP/Postal code is required."), Max(20)]
  const SignUpCountryChecks: seq<Check> := [MinLength(1, "Country for address is required."), Max(100)]
  const SignInPasswordChecks: seq<Check> := [MinLength(1, "Password is required.")]

  const PasswordMismatch: Issue := Issue(["confirmPassword"], "Passwords don't match.")

  function EmailIssues(email: string, isEmail: string -> bool): seq<Issue> {
    if isEmail(email) then [] else [Issue(["email"], "Invalid email address.")]
  }

  function SignUpAddressIssues(v: SignUpValues): (r: seq<Issue>)
    ensures forall k :: 0 <= k < |r| ==> r[k].path != ["confirmPassword"]
  {
    StringIssues("street", v.street, SignUpStreetChecks)
    + StringIssues("city", v.city, SignUpCityChecks)
    + StringIssues("state", v.state, SignUpStateChecks)
    + StringIssues("zip", v.zip, SignUpZipChecks)
    + StringIssues("country", v.country, SignUpCountryChecks)
  }

  /** The issues of the name, email, password and phone fields. */
  function SignUpPersonalIssues(v: SignUpValues, isEmail: string -> bool): (r: seq<Issue>)
    ensures forall k :: 0 <= k < |r| ==> r[k].path != ["confirmPassword"]
  {
    StringIssues("firstName", v.firstName, FirstNameChecks)
    + StringIssues("lastName", v.lastName, LastNameChecks)
    + EmailIssues(v.email, isEmail)
    + StringIssues("password", v.password, SignUpPasswordChecks)
    + StringIssues("phoneCountryCode", v.phoneCountryCode, CountryCodeChecks)
    + StringIssues("phoneNumber", v.phoneNumber, PhoneNumberChecks)
  }

  /** Every field of the sign-up schema in declaration order, before the refinement; none is reported on `confirmPassword`. */
  function SignUpFieldIssues(v: SignUpValues, isEmail: string -> bool): (r: seq<Issue>)
    ensures forall k :: 0 <= k < |r| ==> r[k].path != ["confirmPassword"]
  {
    var a := SignUpPersonalIssues(v, isEmail);
    var b := SignUpAddressIssues(v);
    ReportedOnConcat(a, b, ["confirmPassword"]);
    a + b
  }

  /** `signUpSchema`: the field issues, then the password-confirmation refinement on `confirmPassword`. */
  function SignUpIssues(v: SignUpValues, isEmail: string -> bool): (r: seq<Issue>)
    ensures PasswordMismatch in r <==> v.password != v.confirmPassword
    ensures v.password != v.confirmPassword ==> |r| > 0 && r[|r| - 1] == PasswordMismatch
  {
    SignUpFieldIssues(v, isEmail) + (if v.password == v.confirmPassword then [] else [PasswordMismatch])
  }

  /** `signInSchema` */
  function SignInIssues(v: SignInValues, isEmail: string -> bool): (r: seq<Issue>)
    ensures forall i :: 0 <= i < |r| ==> r[i].path == ["email"] || r[i].path == ["password"]
    ensures ReportedOn(r, ["email"]) <==> !isEmail(v.email)
    ensures ReportedOn(r, ["password"]) <==> v.password == ""
  {
    var e := EmailIssues(v.email, isEmail);
    var p := StringIssues("password", v.password, SignInPasswordChecks);
    assert p == [] <==> Holds(SignInPasswordChecks[0], v.password);
    assert ["email"] != ["password"] by {
      assert ["email"][0][0] != ["password"][0][0];
    }
    assert forall k :: |e| <= k < |e + p| ==> (e + p)[k] == p[k - |e|];
    ReportedOnConcat(e, p, ["email"]);
    ReportedOnConcat(e, p, ["password"]);
    ReportedOnOwnField("password", v.password, SignInPasswordChecks);
    assert !isEmail(v.email) ==> e[0].path == ["email"];
    e + p
  }

  // ---------------------------------------------------------------------------
  // Reference definitions, stated character by character

  /** A plus sign followed by one to three ASCII digits. */
  predicate IsCountryCode(s: string) {
    2 <= |s| <= 4 && s[0] == '+' && forall i :: 1 <= i < |s| ==> IsAsciiDigit(s[i])
  }

  /** Seven to fifteen ASCII digits and nothing else. */
  predicate IsPhoneNumber(s: string) {
    7 <= |s| <= 15 && forall i :: 0 <= i < |s| ==> IsAsciiDigit(s[i])
  }

  lemma CountryCodeAccepted(s: string)
    ensures StringIssues("phoneCountryCode", s, CountryCodeChecks) == [] <==> IsCountryCode(s)
  {
    if MatchesRun(CountryCodeRun, s) {
      forall i | 1 <= i < |s| ensures IsAsciiDigit(s[i]) {
        assert s[1..][i - 1] == s[i];
      }
    }
    if IsCountryCode(s) {
      assert s[..1] == "+";
      forall i | 0 <= i < |s[1..]| ensures IsAsciiDigit(s[1..][i]) {
        assert s[1..][i] == s[i + 1];
      }
    }
  }

  lemma PhoneNumberAccepted(s: string)
    ensures StringIssues("phoneNumber", s, PhoneNumberChecks) == [] <==> IsPhoneNumber(s)
  {
    assert s[|PhoneNumberRun.prefix|..] == s;
    assert s[..0] == "";
  }

  /** Sign-up is accepted exactly when every field rule holds and the two passwords agree. */
  lemma SignUpAccepted(v: SignUpValues, isEmail: string -> bool)
    ensures SignUpIssues(v, isEmail) == [] <==>
      && |v.firstName| >= 1
      && |v.lastName| >= 1
      && isEmail(v.email)
      && |v.password| >= 6
      && v.password == v.confirmPassword
      && IsCountryCode(v.phoneCountryCode)
      && IsPhoneNumber(v.phoneNumber)
      && AddressBoundsHold(v.street, v.city, v.state, v.zip, v.country)
  {
    CountryCodeAccepted(v.phoneCountryCode);
    PhoneNumberAccepted(v.phoneNumber);
    SignUpAddressBounds(v);
    assert StringIssues("firstName", v.firstName, FirstNameChecks) == [] <==> |v.firstName| >= 1 by {
      assert Holds(FirstNameChecks[0], v.firstName) <==> |v.firstName| >= 1;
    }
    assert StringIssues("lastName", v.lastName, LastNameChecks) == [] <==> |v.lastName| >= 1 by {
      assert Holds(LastNameChecks[0], v.lastName) <==> |v.lastName| >= 1;
    }
    assert StringIssues("password", v.password, SignUpPasswordChecks) == [] <==> |v.password| >= 6 by {
      assert Holds(SignUpPasswordChecks[0], v.password) <==> |v.password| >= 6;
    }
  }

  lemma SignUpAddressBounds(v: SignUpValues)
    ensures SignUpAddressIssues(v) == [] <==> AddressBoundsHold(v.street, v.city, v.state, v.zip, v.country)
  {
    BoundsAccept("street", v.street, 3, SignUpStreetChecks[0].message, 200);
    BoundsAccept("city", v.city, 1, SignUpCityChecks[0].message, 100);
    BoundsAccept("state", v.state, 1, SignUpStateChecks[0].message, 100);
    BoundsAccept("zip", v.zip, 3, SignUpZipChecks[0].message, 20);
    BoundsAccept("country", v.country, 1, SignUpCountryChecks[0].message, 100);
  }

  /** Differing passwords are reported on the `confirmPassword` path, as the last issue. */
  lemma MismatchReportedOnConfirmPassword(v: SignUpValues, isEmail: string -> bool)
    requires v.password != v.confirmPassword
    ensures |SignUpIssues(v, isEmail)| > 0
    ensures SignUpIssues(v, isEmail)[|SignUpIssues(v, isEmail)| - 1] == PasswordMismatch
  {
  }

  /** Sign-in needs only a well-formed email and a non-empty password. */
  lemma SignInAccepted(v: SignInValues, isEmail: string -> bool)
    ensures SignInIssues(v, isEmail) == [] <==> isEmail(v.email) && |v.password| >= 1
  {
    assert Holds(SignInPasswordChecks[0], v.password) <==> |v.password| >= 1;
  }

  // ---------------------------------------------------------------------------
  // The address book a sign-up seeds

  /** The book `signUpWithEmail` stores: the sign-up address alone, flagged default, under a fresh id. */
  function SignUpBook(v: SignUpValues, newAddressId: string): Book {
    SeedBook(newAddressId, v.street, v.city, v.state, v.zip, v.country)
  }

  /**
   * The sign-up address rules are the server's: an accepted sign-up seeds a valid book whose
   * address the server's edit schema would accept unchanged.
   */
  lemma SignUpSeedsServerValidBook(v: SignUpValues, isEmail: string -> bool, newAddressId: string)
    requires SignUpIssues(v, isEmail) == []
    ensures Valid(SignUpBook(v, newAddressId))
    ensures var a := SignUpBook(v, newAddressId)[0];
      ParseAddress(RawAddress(Str(a.street), Str(a.city), Str(a.state), Str(a.zip), Str(a.country), Bool(a.isDefault)))
        == Ok(AddressEdit(a.street, a.city, a.state, a.zip, a.country, true))
  {
    SignUpAccepted(v, isEmail);
  }
}

=== FILE: cart.dfy ===
/**
 * The shopping cart of the cart context: a sequence of items keyed by product id, the
 * operations that change it, the derived count and total, and the migration of a cart read
 * back from browser storage. Storage access, toasts and React state are not modelled: each
 * operation is the pure update function it hands to `setItems`.
 */
module Cart {
  import opened Common
  import opened Catalog

  const CartPlaceholder: string := "https://placehold.co/128x128.png"

  /** A cart line: the product, a quantity and the image shown for it. */
  datatype CartItem = CartItem(product: Product, quantity: int, imageUrl: string) {
    function Id(): string {
      product.id
    }
  }

  type Items = seq<CartItem>

  /** The image a new or migrated line shows: the first product image when it is a non-empty string. */
  function DisplayImageUrl(p: Product): (r: string)
    ensures r != ""
    ensures r == CartPlaceholder || (|p.imageUrls| > 0 && r == p.imageUrls[0])
    ensures |p.imageUrls| > 0 && p.imageUrls[0] != "" ==> r == p.imageUrls[0]
    ensures |p.imageUrls| == 0 || p.imageUrls[0] == "" ==> r == CartPlaceholder
  {
    if |p.imageUrls| > 0 && p.imageUrls[0] != "" then p.imageUrls[0] else CartPlaceholder
  }

  predicate Contains(items: Items, id: string) {
    exists i :: 0 <= i < |items| && items[i].Id() == id
  }

  predicate UniqueIds(items: Items) {
    forall i, j :: 0 <= i < |items| && 0 <= j < |items| && items[i].Id() == items[j].Id() ==> i == j
  }

  /** Every line shows the image its product calls for. */
  predicate ImagesConsistent(items: Items) {
    forall i :: 0 <= i < |items| ==> items[i].imageUrl == DisplayImageUrl(items[i].product)
  }

  /** `items.findIndex(item => item.id === id)`, as an option. */
  function IndexOfItem(items: Items, id: string): (r: Option<nat>)
    ensures r.None? <==> !Contains(items, id)
    ensures r.Some? ==> r.value < |items| && items[r.value].Id() == id
    ensures r.Some? ==> forall j :: 0 <= j < r.value ==> items[j].Id() != id
  {
    if |items| == 0 then None
    else if items[0].Id() == id then Some(0)
    else
      var rest := IndexOfItem(items[1..], id);
      assert forall j :: 1 <= j < |items| ==> items[j] == items[1..][j - 1];
      match rest
      case None => None
      case Some(k) => Some(k + 1)
  }

  // ---------------------------------------------------------------------------
  // Sums over the cart

  /** `getCartItemCount`: the sum of the quantities. */
  function ItemCount(items: Items): int {
    if |items| == 0 then 0 else items[0].quantity + ItemCount(items[1..])
  }

  /** One line's contribution to the total: price times quantity, over exact reals. */
  function LineTotal(item: CartItem): real {
    item.product.price * item.quantity as real
  }

  /** `getCartTotal`: the sum of the line totals. */
  function CartTotal(items: Items): real {
    if |items| == 0 then 0.0 else LineTotal(items[0]) + CartTotal(items[1..])
  }

  /** A cart whose lines all hold a positive quantity counts at least one item per line. */
  lemma {:induction false} CountAtLeastLines(items: Items)
    requires forall i :: 0 <= i < |items| ==> items[i].quantity > 0
    ensures ItemCount(items) >= |items|
  {
    if |items| > 0 {
      CountAtLeastLines(items[1..]);
    }
  }

  /** With non-negative prices and quantities the total is non-negative. */
  lemma {:induction false} TotalNonNegative(items: Items)
    requires forall i :: 0 <= i < |items| ==> items[i].quantity >= 0 && items[i].product.price >= 0.0
    ensures CartTotal(items) >= 0.0
  {
    if |items| > 0 {
      TotalNonNegative(items[1..]);
    }
  }

  lemma {:induction false} SumsOfConcat(a: Items, b: Items)
    ensures ItemCount(a + b) == ItemCount(a) + ItemCount(b)
    ensures CartTotal(a + b) == CartTotal(a) + CartTotal(b)
  {
    if |a| == 0 {
      assert a + b == b;
    } else {
      assert (a + b)[1..] == a[1..] + b;
      SumsOfConcat(a[1..], b);
    }
  }

  lemma {:induction false} SumsOfSplit(items: Items, k: nat)
    requires k < |items|
    ensures ItemCount(items) == ItemCount(items[..k]) + items[k].quantity + ItemCount(items[k + 1..])
    ensures CartTotal(items) == CartTotal(items[..k]) + LineTotal(items[k]) + CartTotal(items[k + 1..])
  {
    assert items == items[..k] + ([items[k]] + items[k + 1..]);
    SumsOfConcat(items[..k], [items[k]] + items[k + 1..]);
    assert ([items[k]] + items[k + 1..])[1..] == items[k + 1..];
  }

  // ---------------------------------------------------------------------------
  // Operations

  /**
   * `addToCart(product, quantityToAdd)`: an existing line gains the quantity and keeps its
   * image; otherwise a new line is appended.
   */
  function AddToCart(items: Items, p: Product, quantityToAdd: int): (r: Items)
    ensures Contains(r, p.id)
    ensures UniqueIds(items) ==> UniqueIds(r)
    ensures ImagesConsistent(items) ==> ImagesConsistent(r)
    ensures ItemCount(r) == ItemCount(items) + quantityToAdd
  {
    match IndexOfItem(items, p.id)
    case Some(k) =>
      var r := items[k := items[k].(quantity := items[k].quantity + quantityToAdd)];
      SumsOfSplit(items, k);
      SumsOfSplit(r, k);
      assert r[..k] == items[..k] && r[k + 1..] == items[k + 1..];
      r
    case None =>
      var r := items + [CartItem(p, quantityToAdd, DisplayImageUrl(p))];
      SumsOfConcat(items, [CartItem(p, quantityToAdd, DisplayImageUrl(p))]);
      assert r[|items|].Id() == p.id;
      r
  }

  /** `removeFromCart(id)`: `items.filter(item => item.id !== id)`. */
  function RemoveFromCart(items: Items, id: string): (r: Items)
    ensures forall x :: x in r <==> x in items && x.Id() != id
    ensures !Contains(r, id)
  {
    if |items| == 0 then []
    else
      var rest := RemoveFromCart(items[1..], id);
      assert forall x :: x in items <==> x == items[0] || x in items[1..];
      var r := if items[0].Id() == id then rest else [items[0]] + rest;
      assert forall j :: 0 <= j < |r| ==> r[j] in r;
      r
  }

  /** Removing an id the cart lacks changes nothing. */
  lemma {:induction false} RemoveAbsentIsIdentity(items: Items, id: string)
    requires !Contains(items, id)
    ensures RemoveFromCart(items, id) == items
  {
    if |items| > 0 {
      assert !Contains(items[1..], id) by {
        forall j | 0 <= j < |items[1..]| ensures items[1..][j].Id() != id {
          assert items[1..][j] == items[j + 1];
        }
      }
      RemoveAbsentIsIdentity(items[1..], id);
      assert items[0].Id() != id;
      assert [items[0]] + items[1..] == items;
    }
  }

  /** Removal keeps every remaining line's image in step with its product. */
  lemma RemoveKeepsImagesConsistent(items: Items, id: string)
    requires ImagesConsistent(items)
    ensures ImagesConsistent(RemoveFromCart(items, id))
  {
    var r := RemoveFromCart(items, id);
    forall j | 0 <= j < |r| ensures r[j].imageUrl == DisplayImageUrl(r[j].product) {
      assert r[j] in items;
    }
  }

  /** Removing lines keeps the ids unique. */
  lemma {:induction false} RemoveKeepsUniqueIds(items: Items, id: string)
    requires UniqueIds(items)
    ensures UniqueIds(RemoveFromCart(items, id))
  {
    if |items| > 0 {
      var tail := items[1..];
      TailKeepsUniqueIds(items);
      RemoveKeepsUniqueIds(tail, id);
      var rest := RemoveFromCart(tail, id);
      if items[0].Id() != id {
        var r := [items[0]] + rest;
        forall j | 0 <= j < |rest| ensures rest[j].Id() != items[0].Id() {
          assert rest[j] in tail;
          var m :| 0 <= m < |tail| && tail[m] == rest[j];
          assert items[m + 1] == rest[j];
        }
      }
    }
  }

  /** `updateQuantity(id, quantity)` */
  function UpdateQuantity(items: Items, id: string, quantity: int): (r: Items)
    ensures quantity <= 0 ==> r == RemoveFromCart(items, id)
    ensures quantity > 0 ==> |r| == |items|
    ensures quantity > 0 ==> forall i :: 0 <= i < |items| ==>
      r[i] == (if items[i].Id() == id then items[i].(quantity := quantity) else items[i])
  {
    if quantity <= 0 then
      RemoveFromCart(items, id)
    else
      seq(|items|, i requires 0 <= i < |items| =>
        if items[i].Id() == id then items[i].(quantity := quantity) else items[i])
  }

  /** `clearCart()` */
  function ClearCart(): (r: Items)
    ensures ItemCount(r) == 0 && CartTotal(r) == 0.0
    ensures forall id :: !Contains(r, id)
  {
    []
  }

  // ---------------------------------------------------------------------------
  // Properties of the operations

  /** Adding a product already in the cart changes only that line's quantity. */
  lemma {:induction false} AddExistingProduct(items: Items, p: Product, q: int, k: nat)
    requires IndexOfItem(items, p.id) == Some(k)
    ensures AddToCart(items, p, q) == items[k := items[k].(quantity := items[k].quantity + q)]
    ensures CartTotal(AddToCart(items, p, q)) == CartTotal(items) + items[k].product.price * q as real
  {
    assert AddToCart(items, p, q) == items[k := items[k].(quantity := items[k].quantity + q)];
    TotalAfterRaise(items, k, q);
  }

  /** Raising one line's quantity by q raises the cart total by that line's price times q. */
  lemma {:induction false} TotalAfterRaise(items: Items, k: nat, q: int)
    requires k < |items|
    ensures CartTotal(items[k := items[k].(quantity := items[k].quantity + q)])
      == CartTotal(items) + items[k].product.price * q as real
  {
    var r := items[k := items[k].(quantity := items[k].quantity + q)];
    SumsOfSplit(items, k);
    SumsOfSplit(r, k);
    assert r[..k] == items[..k] && r[k + 1..] == items[k + 1..];
    var p := items[k].product.price;
    assert p * (items[k].quantity + q) as real == p * items[k].quantity as real + p * q as real;
  }

  /** Adding a new product appends one line, with the requested quantity and its display image. */
  lemma {:induction false} AddNewProduct(items: Items, p: Product, q: int)
    requires !Contains(items, p.id)
    ensures AddToCart(items, p, q) == items + [CartItem(p, q, DisplayImageUrl(p))]
    ensures CartTotal(AddToCart(items, p, q)) == CartTotal(items) + p.price * q as real
  {
    var line := CartItem(p, q, DisplayImageUrl(p));
    SumsOfConcat(items, [line]);
    assert CartTotal([line]) == LineTotal(line);
  }

  /** In a cart with unique ids, removing a present id deletes exactly its line and keeps the others in order. */
  lemma {:induction false} RemovePresentLine(items: Items, id: string, k: nat)
    requires UniqueIds(items)
    requires k < |items| && items[k].Id() == id
    ensures RemoveFromCart(items, id) == items[..k] + items[k + 1..]
    ensures ItemCount(RemoveFromCart(items, id)) == ItemCount(items) - items[k].quantity
  {
    RemoveDeletesLine(items, id, k);
    SumsOfSplit(items, k);
    SumsOfConcat(items[..k], items[k + 1..]);
  }

  lemma {:induction false} RemoveDeletesLine(items: Items, id: string, k: nat)
    requires UniqueIds(items)
    requires k < |items| && items[k].Id() == id
    ensures RemoveFromCart(items, id) == items[..k] + items[k + 1..]
  {
    if k == 0 {
      RemoveDeletesHead(items, id);
    } else {
      var tail := items[1..];
      TailKeepsUniqueIds(items);
      assert tail[k - 1] == items[k];
      RemoveDeletesLine(tail, id, k - 1);
      assert items[0].Id() != id;
      assert RemoveFromCart(items, id) == [items[0]] + RemoveFromCart(tail, id);
      SliceAroundTail(items, k);
    }
  }

  lemma SliceAroundTail<T>(s: seq<T>, k: nat)
    requires 0 < k < |s|
    ensures [s[0]] + (s[1..][..k - 1] + s[1..][k..]) == s[..k] + s[k + 1..]
  {
    assert s[1..][..k - 1] == s[1..k];
    assert s[1..][k..] == s[k + 1..];
    assert [s[0]] + s[1..k] == s[..k];
  }

  lemma RemoveDeletesHead(items: Items, id: string)
    requires UniqueIds(items)
    requires 0 < |items| && items[0].Id() == id
    ensures RemoveFromCart(items, id) == items[1..]
  {
    var tail := items[1..];
    assert !Contains(tail, id) by {
      forall j | 0 <= j < |tail| ensures tail[j].Id() != id {
        assert tail[j] == items[j + 1];
      }
    }
    assert RemoveFromCart(items, id) == RemoveFromCart(tail, id);
    RemoveAbsentIsIdentity(tail, id);
  }

  lemma TailKeepsUniqueIds(items: Items)
    requires UniqueIds(items) && |items| > 0
    ensures UniqueIds(items[1..])
  {
    var tail := items[1..];
    forall i, j | 0 <= i < |tail| && 0 <= j < |tail| && tail[i].Id() == tail[j].Id() ensures i == j {
      assert items[i + 1].Id() == items[j + 1].Id();
    }
  }

  /** Updating the quantity of a present line in a cart with unique ids moves the count by the difference. */
  lemma {:induction false} UpdatePresentLine(items: Items, id: string, q: int, k: nat)
    requires UniqueIds(items) && q > 0
    requires k < |items| && items[k].Id() == id
    ensures UpdateQuantity(items, id, q) == items[k := items[k].(quantity := q)]
    ensures ItemCount(UpdateQuantity(items, id, q)) == ItemCount(items) - items[k].quantity + q
  {
    var r := UpdateQuantity(items, id, q);
    assert r == items[k := items[k].(quantity := q)];
    SumsOfSplit(items, k);
    SumsOfSplit(r, k);
    assert r[..k] == items[..k] && r[k + 1..] == items[k + 1..];
  }

  // ---------------------------------------------------------------------------
  // Storage migration

  /** A line as read back from storage, possibly written by an older version without `imageUrl`. */
  datatype StoredItem = StoredItem(product: Product, quantity: int, imageUrl: Option<string>)

  /**
   * What the storage key held: nothing, unparseable text, a non-array value, or an array whose
   * elements are stored lines or `null` (`None`).
   */
  datatype StoredCart = NoEntry | Unparseable | NotAnArray | StoredArray(lines: seq<Option<StoredItem>>)

  /** The migration map: keep product and quantity, recompute the display image. */
  function Migrate(stored: seq<StoredItem>): (r: Items)
    ensures |r| == |stored|
    ensures forall i :: 0 <= i < |stored| ==>
      r[i].product == stored[i].product && r[i].quantity == stored[i].quantity
    ensures ImagesConsistent(r)
  {
    seq(|stored|, i requires 0 <= i < |stored| =>
      CartItem(stored[i].product, stored[i].quantity, DisplayImageUrl(stored[i].product)))
  }

  /** `JSON.stringify(items)` as read back: every line an object holding every field, including the image. */
  function Persist(items: Items): (r: seq<Option<StoredItem>>)
    ensures |r| == |items|
    ensures forall i :: 0 <= i < |r| ==> r[i].Some? && r[i].value.imageUrl.Some?
  {
    seq(|items|, i requires 0 <= i < |items| => Some(StoredItem(items[i].product, items[i].quantity, Some(items[i].imageUrl))))
  }

  /** The stored lines of an array with no `null` element. */
  function Present(lines: seq<Option<StoredItem>>): (r: seq<StoredItem>)
    requires forall i :: 0 <= i < |lines| ==> lines[i].Some?
    ensures |r| == |lines|
    ensures forall i :: 0 <= i < |lines| ==> lines[i] == Some(r[i])
  {
    seq(|lines|, i requires 0 <= i < |lines| => lines[i].value)
  }

  /**
   * The cart the provider starts from after reading storage. A `null` element makes the image
   * lookup throw inside the migration map; the catch drops the key and the cart stays empty.
   */
  function LoadCart(stored: StoredCart): (r: Items)
    ensures !stored.StoredArray? ==> r == []
    ensures stored.StoredArray? && (exists i :: 0 <= i < |stored.lines| && stored.lines[i].None?) ==> r == []
    ensures stored.StoredArray? && (forall i :: 0 <= i < |stored.lines| ==> stored.lines[i].Some?) ==>
      |r| == |stored.lines| &&
      forall i :: 0 <= i < |r| ==>
        r[i].product == stored.lines[i].value.product && r[i].quantity == stored.lines[i].value.quantity
    ensures ImagesConsistent(r)
  {
    match stored
    case StoredArray(lines) =>
      if forall i :: 0 <= i < |lines| ==> lines[i].Some? then Migrate(Present(lines)) else []
    case _ => []
  }

  /** Saving a cart built by these operations and loading it back gives the same cart. */
  lemma PersistThenLoad(items: Items)
    requires ImagesConsistent(items)
    ensures LoadCart(StoredArray(Persist(items))) == items
  {
  }

  /** The operations keep every line's image in step with its product, from the empty cart on. */
  lemma OperationsKeepImagesConsistent(items: Items, p: Product, q: int, id: string)
    requires ImagesConsistent(items)
    ensures ImagesConsistent(AddToCart(items, p, q))
    ensures ImagesConsistent(RemoveFromCart(items, id))
    ensures ImagesConsistent(UpdateQuantity(items, id, q))
  {
    RemoveKeepsImagesConsistent(items, id);
    var u := UpdateQuantity(items, id, q);
    if q > 0 {
      forall j | 0 <= j < |u| ensures u[j].imageUrl == DisplayImageUrl(u[j].product) {
        assert u[j].product == items[j].product && u[j].imageUrl == items[j].imageUrl;
      }
    }
  }
}

=== FILE: catalog.dfy ===
/** The catalog's `Product` record, as the rest of the application types it. */
module Catalog {
  import opened Common

  /** A product; `price` is an exact real standing for the JavaScript number. */
  datatype Product = Product(
    id: string,
    name: string,
    description: string,
    price: real,
    imageUrls: seq<string>,
    videoUrl: Option<string>,
    category: string,
    brand: Option<string>)
}

=== FILE: common.dfy ===
/** Failure-carrying datatypes shared by every module of the model. */
module Common {

  /** A value that may be missing: JavaScript's `undefined` / `null`. */
  datatype Option<+T> = None | Some(value: T) {

    /** The carried value, or `default` when there is none. */
    function GetOr(default: T): T {
      match this
      case Some(v) => v
      case None => default
    }
  }

  /** The outcome of an operation that either succeeds with a value or fails with an error. */
  datatype Result<+T, +E> = Ok(value: T) | Err(error: E)
}

=== FILE: js_text.dfy ===
/** Strings as the JavaScript runtime treats them: trimming, prefix tests and digits. */
module JsText {

  /** The WhiteSpace and LineTerminator code points of ECMAScript, which `String.prototype.trim` strips. */
  predicate IsJsWhitespace(c: char) {
    || c == '\t' || c == '\n' || c == '\U{000B}' || c == '\U{000C}' || c == '\r' || c == ' '
    || c == '\U{00A0}' || c == '\U{1680}' || ('\U{2000}' <= c <= '\U{200A}')
    || c == '\U{2028}' || c == '\U{2029}' || c == '\U{202F}' || c == '\U{205F}'
    || c == '\U{3000}' || c == '\U{FEFF}'
  }

  /** The ASCII digits, the class `\d` of a JavaScript regular expression without the `u` flag. */
  predicate IsAsciiDigit(c: char) {
    '0' <= c <= '9'
  }

  predicate AllDigits(s: string) {
    forall i :: 0 <= i < |s| ==> IsAsciiDigit(s[i])
  }

  /** `s.startsWith(p)` */
  predicate StartsWith(s: string, p: string) {
    |p| <= |s| && s[..|p|] == p
  }

  /** `s.endsWith(p)` */
  predicate EndsWith(s: string, p: string) {
    |p| <= |s| && s[|s| - |p|..] == p
  }

  /** Neither end of `s` is whitespace. */
  predicate IsTrimmed(s: string) {
    |s| > 0 ==> !IsJsWhitespace(s[0]) && !IsJsWhitespace(s[|s| - 1])
  }

  /** `s.trimStart()`: the suffix left after dropping leading whitespace. */
  function TrimStart(s: string): (r: string)
    ensures |r| <= |s| && r == s[|s| - |r|..]
    ensures |r| > 0 ==> !IsJsWhitespace(r[0])
    ensures forall i :: 0 <= i < |s| - |r| ==> IsJsWhitespace(s[i])
  {
    if |s| > 0 && IsJsWhitespace(s[0]) then TrimStart(s[1..]) else s
  }

  /** `s.trimEnd()`: the prefix left after dropping trailing whitespace. */
  function TrimEnd(s: string): (r: string)
    ensures |r| <= |s| && r == s[..|r|]
    ensures |r| > 0 ==> !IsJsWhitespace(r[|r| - 1])
    ensures forall i :: |r| <= i < |s| ==> IsJsWhitespace(s[i])
  {
    if |s| > 0 && IsJsWhitespace(s[|s| - 1]) then TrimEnd(s[..|s| - 1]) else s
  }

  /**
   * `s.trim()`: whitespace is removed at both ends and nowhere else. The result is what
   * `trimEnd` leaves of what `trimStart` leaves, so it is one slice of `s` with only whitespace
   * before and after it.
   */
  function Trim(s: string): (r: string)
    ensures r == TrimEnd(TrimStart(s))
    ensures IsTrimmed(r)
    ensures |r| <= |s|
    ensures IsTrimmed(s) ==> r == s
  {
    var t := TrimStart(s);
    var r := TrimEnd(t);
    assert |r| > 0 ==> r[0] == t[0];
    r
  }
}

=== FILE: js_value.dfy ===
/** The JavaScript values a stored document or a parsed JSON text can hold. */
module JsValues {

  /** A JSON-like JavaScript value. Numbers are exact reals: NaN and the infinities are not represented. */
  datatype JsValue =
    | Undefined
    | Null
    | Bool(b: bool)
    | Num(n: real)
    | Str(s: string)
    | Arr(elems: seq<JsValue>)
    | Obj(fields: map<string, JsValue>)

  /** JavaScript truthiness: `undefined`, `null`, `false`, `0` and `""` are falsy, every array and object is truthy. */
  predicate Truthy(v: JsValue) {
    match v
    case Undefined => false
    case Null => false
    case Bool(b) => b
    case Num(n) => n != 0.0
    case Str(s) => |s| > 0
    case Arr(_) => true
    case Obj(_) => true
  }

  /** JavaScript's `a || b`. */
  function Or(a: JsValue, b: JsValue): JsValue {
    if Truthy(a) then a else b
  }

  /** Property access `obj[key]` on a plain object: a missing key reads as `undefined`. */
  function Field(obj: map<string, JsValue>, key: string): JsValue {
    if key in obj then obj[key] else Undefined
  }

  /** `xs.every(x => typeof x === 'string')` */
  predicate AllStrings(xs: seq<JsValue>) {
    forall i :: 0 <= i < |xs| ==> xs[i].Str?
  }

  /** The strings of an array known to hold only strings. */
  function Strings(xs: seq<JsValue>): (r: seq<string>)
    requires AllStrings(xs)
    ensures |r| == |xs|
    ensures forall i :: 0 <= i < |xs| ==> xs[i] == Str(r[i])
  {
    if |xs| == 0 then [] else [xs[0].s] + Strings(xs[1..])
  }

  /** The name zod uses for the received type in an "invalid_type" issue. */
  function TypeName(v: JsValue): string {
    match v
    case Undefined => "undefined"
    case Null => "null"
    case Bool(_) => "boolean"
    case Num(_) => "number"
    case Str(_) => "string"
    case Arr(_) => "array"
    case Obj(_) => "object"
  }
}

=== FILE: product_card.dfy ===
/**
 * How a product card picks and cleans the URL of its primary image. `JSON.parse` is a
 * parameter: a function from text to the parsed value, or `None` where it would throw.
 */
module ProductCard {
  import opened Common
  import opened JsText
  import opened JsValues

  const CardPlaceholder: string := "https://placehold.co/600x400.png"

  /** An absolute http(s) URL or a root-relative path. */
  predicate AllowedPrefix(s: string) {
    StartsWith(s, "http://") || StartsWith(s, "https://") || StartsWith(s, "/")
  }

  /** Text that looks like a JSON array of strings: it starts with `["` and ends with `"]`. */
  predicate LooksWrapped(s: string) {
    StartsWith(s, "[\"") && EndsWith(s, "\"]")
  }

  /** The first element of a parsed array when that element is a string. */
  function FirstString(parsed: Option<JsValue>): Option<string> {
    match parsed
    case Some(Arr(elems)) => if |elems| > 0 && elems[0].Str? then Some(elems[0].s) else None
    case _ => None
  }

  /** The URL the sanitiser considers for an input: the trimmed text, or the first element it wraps. */
  function Candidate(url: string, jsonParse: string -> Option<JsValue>): Option<string> {
    var t := Trim(url);
    if LooksWrapped(t) then FirstString(jsonParse(t)) else Some(t)
  }

  /** `sanitizeImageUrlString(urlStr)` */
  function SanitizeImageUrl(url: Option<string>, jsonParse: string -> Option<JsValue>): (r: Option<string>)
    ensures url.None? || url.value == "" ==> r.None?
    ensures r.Some? ==> AllowedPrefix(r.value)
    ensures url.Some? && url.value != "" ==>
      (r.Some? <==> Candidate(url.value, jsonParse).Some? && AllowedPrefix(Candidate(url.value, jsonParse).value))
    ensures r.Some? ==> r == Candidate(url.value, jsonParse)
  {
    if url.None? || url.value == "" then None
    else
      var processed := Trim(url.value);
      if LooksWrapped(processed) then
        match jsonParse(processed)
        case None => None
        case Some(parsed) =>
          if parsed.Arr? && |parsed.elems| > 0 && parsed.elems[0].Str? then
            var first := parsed.elems[0].s;
            if AllowedPrefix(first) then Some(first) else None
          else None
      else if AllowedPrefix(processed) then Some(processed)
      else None
  }

  /** A URL with an allowed prefix never looks like a wrapped array. */
  lemma AllowedIsNotWrapped(s: string)
    requires AllowedPrefix(s)
    ensures !LooksWrapped(s)
  {
    assert s[0] == 'h' || s[0] == '/';
  }

  /** A plain input with an allowed prefix comes back trimmed and otherwise unchanged. */
  lemma PlainUrlKept(url: string, jsonParse: string -> Option<JsValue>)
    requires AllowedPrefix(Trim(url))
    ensures SanitizeImageUrl(Some(url), jsonParse) == Some(Trim(url))
  {
    AllowedIsNotWrapped(Trim(url));
  }

  /** Whitespace around the input never changes the outcome. */
  lemma SanitizeIgnoresSurroundingWhitespace(url: string, jsonParse: string -> Option<JsValue>)
    ensures SanitizeImageUrl(Some(url), jsonParse) == SanitizeImageUrl(Some(Trim(url)), jsonParse)
  {
    var t := Trim(url);
    assert Trim(t) == t;
    if url == "" {
      assert |t| == 0;
    } else if t == "" {
      assert !AllowedPrefix(t);
      assert !LooksWrapped(t);
      assert SanitizeImageUrl(Some(url), jsonParse).None?;
    } else {
      assert SanitizeImageUrl(Some(url), jsonParse) == SanitizeImageUrl(Some(t), jsonParse);
    }
  }

  /** Sanitising a trimmed result again returns it unchanged. */
  lemma SanitizeIdempotent(url: Option<string>, jsonParse: string -> Option<JsValue>)
    requires SanitizeImageUrl(url, jsonParse).Some?
    requires IsTrimmed(SanitizeImageUrl(url, jsonParse).value)
    ensures var u := SanitizeImageUrl(url, jsonParse).value;
      SanitizeImageUrl(Some(u), jsonParse) == Some(u)
  {
    var u := SanitizeImageUrl(url, jsonParse).value;
    PlainUrlKept(u, jsonParse);
  }

  /** The element taken out of a wrapped input is not trimmed again: `["/a.png "]` yields "/a.png ". */
  lemma UnwrappedElementNotRetrimmed(jsonParse: string -> Option<JsValue>)
    requires jsonParse("[\"/a.png \"]") == Some(Arr([Str("/a.png ")]))
    ensures SanitizeImageUrl(Some("[\"/a.png \"]"), jsonParse) == Some("/a.png ")
  {
    var w := "[\"/a.png \"]";
    assert IsTrimmed(w);
    assert Trim(w) == w;
    assert LooksWrapped(w);
    assert jsonParse(Trim(w)) == Some(Arr([Str("/a.png ")]));
    assert AllowedPrefix("/a.png ");
  }

  /** Trimming "/a.png " drops only its trailing blank. */
  lemma TrimDropsTrailingBlank()
    ensures Trim("/a.png ") == "/a.png"
    ensures AllowedPrefix(Trim("/a.png "))
  {
    var u := "/a.png ";
    var v := "/a.png";
    assert !IsJsWhitespace(u[0]);
    assert TrimStart(u) == u;
    assert IsJsWhitespace(u[|u| - 1]);
    assert u[..|u| - 1] == v;
    assert !IsJsWhitespace(v[|v| - 1]);
    assert TrimEnd(v) == v;
    assert TrimEnd(u) == v;
  }

  /** Hence sanitising is not idempotent: the untrimmed element loses its trailing blank on a second pass. */
  lemma SecondPassTrims(jsonParse: string -> Option<JsValue>)
    ensures SanitizeImageUrl(Some("/a.png "), jsonParse) == Some("/a.png")
  {
    TrimDropsTrailingBlank();
    PlainUrlKept("/a.png ", jsonParse);
  }

  /** The raw primary URL: the first `imageUrls` entry, else the first element of a legacy `imageUrl` array, else a legacy `imageUrl` string. */
  function RawPrimaryUrl(imageUrls: seq<string>, legacyImageUrl: JsValue): (r: Option<string>)
    ensures |imageUrls| > 0 ==> r == Some(imageUrls[0])
    ensures |imageUrls| == 0 && legacyImageUrl.Arr? && |legacyImageUrl.elems| > 0 && legacyImageUrl.elems[0].Str? ==>
      r == Some(legacyImageUrl.elems[0].s)
    ensures |imageUrls| == 0 && legacyImageUrl.Str? ==> r == Some(legacyImageUrl.s)
    ensures r.None? <==>
      |imageUrls| == 0 && !legacyImageUrl.Str?
      && !(legacyImageUrl.Arr? && |legacyImageUrl.elems| > 0 && legacyImageUrl.elems[0].Str?)
  {
    if |imageUrls| > 0 then Some(imageUrls[0])
    else if Truthy(legacyImageUrl) && legacyImageUrl.Arr? && |legacyImageUrl.elems| > 0 && legacyImageUrl.elems[0].Str? then
      Some(legacyImageUrl.elems[0].s)
    else if legacyImageUrl.Str? then Some(legacyImageUrl.s)
    else None
  }

  /** The `src` the card renders: the placeholder after an image error or when no URL survived sanitising. */
  function ImageSrc(imageUrls: seq<string>, legacyImageUrl: JsValue, imageError: bool, jsonParse: string -> Option<JsValue>): (r: string)
    ensures AllowedPrefix(r)
    ensures var clean := SanitizeImageUrl(RawPrimaryUrl(imageUrls, legacyImageUrl), jsonParse);
      && (imageError || clean.None? ==> r == CardPlaceholder)
      && (!imageError && clean.Some? ==> r == clean.value)
  {
    var clean := SanitizeImageUrl(RawPrimaryUrl(imageUrls, legacyImageUrl), jsonParse);
    assert StartsWith(CardPlaceholder, "https://");
    if imageError || clean.None? then CardPlaceholder else clean.value
  }
}

=== FILE: product_service.dfy ===
/**
 * Reading products out of the document store. A stored document is an untyped map of
 * values; the service normalises it into a product record, falling back to defaults for
 * missing or falsy fields. The store itself is a parameter: a snapshot that was either
 * fetched or failed.
 */
module ProductService {
  import opened Common
  import opened JsValues
  import opened Catalog
  import opened ProductCard

  type DocData = map<string, JsValue>

  /** A stored document: its id and its data. */
  datatype ProductDoc = ProductDoc(id: string, data: DocData)

  /** The outcome of a read from the store: the data, or an error the service catches. */
  datatype Fetch<T> = Fetched(value: T) | FetchFailed

  /**
   * What the service hands out as a `Product`. The cast it ends with is unchecked, so the
   * text fields are the raw values found in the document (or the defaults).
   */
  datatype ProductRecord = ProductRecord(
    id: string,
    name: JsValue,
    description: JsValue,
    price: real,
    category: JsValue,
    brand: JsValue,
    videoUrl: JsValue,
    imageUrls: seq<string>)

  /** `Array.isArray(v) && v.every(url => typeof url === 'string')` */
  predicate IsStringArray(v: JsValue) {
    v.Arr? && AllStrings(v.elems)
  }

  /** The image list: `imageUrls` when it is an array of strings, else a legacy `imageUrl` array or string, else empty. */
  function NormalizeImageUrls(data: DocData): (r: seq<string>)
    ensures IsStringArray(Field(data, "imageUrls")) ==> r == Strings(Field(data, "imageUrls").elems)
    ensures !IsStringArray(Field(data, "imageUrls")) ==>
      var legacy := Field(data, "imageUrl");
      && (IsStringArray(legacy) ==> r == Strings(legacy.elems))
      && (legacy.Str? && legacy.s != "" ==> r == [legacy.s])
      && (!IsStringArray(legacy) && !(legacy.Str? && legacy.s != "") ==> r == [])
  {
    var urls := Field(data, "imageUrls");
    var legacy := Field(data, "imageUrl");
    if Truthy(urls) && IsStringArray(urls) then Strings(urls.elems)
    else if Truthy(legacy) then
      if IsStringArray(legacy) then Strings(legacy.elems)
      else if legacy.Str? then [legacy.s]
      else []
    else []
  }

  /**
   * The record built for one document: each text field is `value || default`, so a falsy
   * name, description or category takes its fixed default and a falsy brand or video URL
   * becomes `undefined`; a price that is not a number becomes 0.
   */
  function NormalizeProduct(doc: ProductDoc): (r: ProductRecord)
    ensures r.id == doc.id
    ensures IsNormal(r)
    ensures Truthy(Field(doc.data, "name")) ==> r.name == Field(doc.data, "name")
    ensures !Truthy(Field(doc.data, "name")) ==> r.name == Str("Unknown Product")
    ensures Truthy(Field(doc.data, "description")) ==> r.description == Field(doc.data, "description")
    ensures !Truthy(Field(doc.data, "description")) ==> r.description == Str("")
    ensures Truthy(Field(doc.data, "category")) ==> r.category == Field(doc.data, "category")
    ensures !Truthy(Field(doc.data, "category")) ==> r.category == Str("Uncategorized")
    ensures Truthy(Field(doc.data, "brand")) ==> r.brand == Field(doc.data, "brand")
    ensures !Truthy(Field(doc.data, "brand")) ==> r.brand == Undefined
    ensures Truthy(Field(doc.data, "videoUrl")) ==> r.videoUrl == Field(doc.data, "videoUrl")
    ensures !Truthy(Field(doc.data, "videoUrl")) ==> r.videoUrl == Undefined
    ensures Field(doc.data, "price").Num? ==> r.price == Field(doc.data, "price").n
    ensures !Field(doc.data, "price").Num? ==> r.price == 0.0
    ensures r.imageUrls == NormalizeImageUrls(doc.data)
  {
    var data := doc.data;
    var price := Field(data, "price");
    ProductRecord(
      doc.id,
      Or(Field(data, "name"), Str("Unknown Product")),
      Or(Field(data, "description"), Str("")),
      if price.Num? then price.n else 0.0,
      Or(Field(data, "category"), Str("Uncategorized")),
      Or(Field(data, "brand"), Undefined),
      Or(Field(data, "videoUrl"), Undefined),
      NormalizeImageUrls(data))
  }

  /** What any normalised record looks like: name and category set, the optional fields truthy or left out. */
  predicate IsNormal(r: ProductRecord) {
    && Truthy(r.name)
    && Truthy(r.category)
    && (Truthy(r.description) || r.description == Str(""))
    && (Truthy(r.brand) || r.brand == Undefined)
    && (Truthy(r.videoUrl) || r.videoUrl == Undefined)
  }

  /** An array value holding the given strings. */
  function StrArray(urls: seq<string>): (r: seq<JsValue>)
    ensures |r| == |urls|
    ensures AllStrings(r) && Strings(r) == urls
  {
    if |urls| == 0 then []
    else
      var rest := StrArray(urls[1..]);
      var r := [Str(urls[0])] + rest;
      assert forall i :: 1 <= i < |r| ==> r[i] == rest[i - 1];
      r
  }

  /** The document a record would be stored back as. */
  function Encode(r: ProductRecord): DocData {
    map[
      "name" := r.name,
      "description" := r.description,
      "price" := Num(r.price),
      "category" := r.category,
      "brand" := r.brand,
      "videoUrl" := r.videoUrl,
      "imageUrls" := Arr(StrArray(r.imageUrls))]
  }

  /** Storing a record back and reading it again gives the same record exactly when the record is normal. */
  lemma NormalizeFixesExactlyNormalRecords(r: ProductRecord)
    ensures NormalizeProduct(ProductDoc(r.id, Encode(r))) == r <==> IsNormal(r)
  {
    var data := Encode(r);
    assert Field(data, "imageUrls") == Arr(StrArray(r.imageUrls));
    assert NormalizeImageUrls(data) == r.imageUrls;
    assert Field(data, "price") == Num(r.price);
    assert Field(data, "name") == r.name;
    assert Field(data, "description") == r.description;
    assert Field(data, "category") == r.category;
    assert Field(data, "brand") == r.brand;
    assert Field(data, "videoUrl") == r.videoUrl;
  }

  /** Normalising is idempotent: a normalised record read back from its own document is unchanged. */
  lemma NormalizeIdempotent(doc: ProductDoc)
    ensures var r := NormalizeProduct(doc);
      NormalizeProduct(ProductDoc(r.id, Encode(r))) == r
  {
    NormalizeFixesExactlyNormalRecords(NormalizeProduct(doc));
  }

  /** A value that an `as Product` cast can honestly call an optional string. */
  function OptionalText(v: JsValue): Option<string>
    requires v.Str? || v == Undefined
  {
    if v.Str? then Some(v.s) else None
  }

  /** The typed `Product` a record stands for, when its fields really have the types the cast claims. */
  function AsProduct(r: ProductRecord): (p: Option<Product>)
    ensures p.Some? <==>
      r.name.Str? && r.description.Str? && r.category.Str?
      && (r.brand.Str? || r.brand == Undefined) && (r.videoUrl.Str? || r.videoUrl == Undefined)
    ensures p.Some? ==>
      && p.value.id == r.id && p.value.price == r.price && p.value.imageUrls == r.imageUrls
      && Str(p.value.name) == r.name && Str(p.value.category) == r.category
  {
    if r.name.Str? && r.description.Str? && r.category.Str?
       && (r.brand.Str? || r.brand == Undefined) && (r.videoUrl.Str? || r.videoUrl == Undefined)
    then
      Some(Product(r.id, r.name.s, r.description.s, r.price, r.imageUrls,
        OptionalText(r.videoUrl), r.category.s, OptionalText(r.brand)))
    else None
  }

  /** A stored text field that normalises to a string or to nothing: a string, or any falsy value. */
  predicate TextOrFalsy(v: JsValue) {
    v.Str? || !Truthy(v)
  }

  /** The cast is sound exactly for documents whose text fields are strings or falsy. */
  lemma CastSoundIff(doc: ProductDoc)
    ensures AsProduct(NormalizeProduct(doc)).Some? <==>
      && TextOrFalsy(Field(doc.data, "name"))
      && TextOrFalsy(Field(doc.data, "description"))
      && TextOrFalsy(Field(doc.data, "category"))
      && TextOrFalsy(Field(doc.data, "brand"))
      && TextOrFalsy(Field(doc.data, "videoUrl"))
  {
  }

  /** `fetchAllProducts()`: one record per document in snapshot order, and no records when the read fails. */
  function FetchAllProducts(snapshot: Fetch<seq<ProductDoc>>): (r: seq<ProductRecord>)
    ensures snapshot.FetchFailed? ==> r == []
    ensures snapshot.Fetched? ==>
      && |r| == |snapshot.value|
      && forall i :: 0 <= i < |r| ==> r[i] == NormalizeProduct(snapshot.value[i])
  {
    match snapshot
    case FetchFailed => []
    case Fetched(docs) => NormalizeAll(docs)
  }

  /** The records of a sequence of documents, pushed in order. */
  function NormalizeAll(docs: seq<ProductDoc>): (r: seq<ProductRecord>)
    ensures |r| == |docs|
    ensures forall i :: 0 <= i < |r| ==> r[i] == NormalizeProduct(docs[i])
  {
    seq(|docs|, i requires 0 <= i < |docs| => NormalizeProduct(docs[i]))
  }

  /** `fetchProductById(productId)`: the record when the document exists, nothing when it is missing or the read fails. */
  function FetchProductById(snapshot: Fetch<map<string, DocData>>, productId: string): (r: Option<ProductRecord>)
    ensures r.Some? <==> snapshot.Fetched? && productId in snapshot.value
    ensures r.Some? ==> r.value.id == productId
  {
    match snapshot
    case FetchFailed => None
    case Fetched(docs) =>
      if productId in docs then Some(NormalizeProduct(ProductDoc(productId, docs[productId]))) else None
  }

  /** No two documents share an id. */
  predicate UniqueDocIds(docs: seq<ProductDoc>) {
    forall i, j :: 0 <= i < j < |docs| ==> docs[i].id != docs[j].id
  }

  /** The collection as a map from id to data. */
  function Collection(docs: seq<ProductDoc>): (c: map<string, DocData>)
    ensures forall id :: id in c <==> exists i :: 0 <= i < |docs| && docs[i].id == id
  {
    if |docs| == 0 then map[]
    else
      var init := docs[..|docs| - 1];
      var c := Collection(init)[docs[|docs| - 1].id := docs[|docs| - 1].data];
      assert forall i :: 0 <= i < |init| ==> init[i] == docs[i];
      c
  }

  /** With unique ids, each document's data is what the collection holds under its id. */
  lemma {:induction false} CollectionHolds(docs: seq<ProductDoc>, i: nat)
    requires UniqueDocIds(docs)
    requires i < |docs|
    ensures docs[i].id in Collection(docs) && Collection(docs)[docs[i].id] == docs[i].data
  {
    var n := |docs| - 1;
    if i < n {
      var init := docs[..n];
      assert init[i] == docs[i];
      assert UniqueDocIds(init);
      CollectionHolds(init, i);
      assert docs[n].id != docs[i].id;
    }
  }

  /** Both readers normalise a document the same way: fetching by id gives the record the full listing holds. */
  lemma ByIdAgreesWithAll(docs: seq<ProductDoc>, i: nat)
    requires UniqueDocIds(docs)
    requires i < |docs|
    ensures FetchProductById(Fetched(Collection(docs)), docs[i].id) == Some(FetchAllProducts(Fetched(docs))[i])
  {
    CollectionHolds(docs, i);
    assert ProductDoc(docs[i].id, Collection(docs)[docs[i].id]) == docs[i];
  }

  /** A missing id or a failed read yields no product. */
  lemma ByIdMissing(snapshot: Fetch<map<string, DocData>>, productId: string)
    requires snapshot.FetchFailed? || productId !in snapshot.value
    ensures FetchProductById(snapshot, productId).None?
  {
  }

  /** For a legacy document with a usable `imageUrl`, the card's own fallback picks the image the service lists first. */
  lemma CardAndServiceAgreeOnLegacyImage(legacy: JsValue)
    requires (legacy.Str? && legacy.s != "") || (IsStringArray(legacy) && |legacy.elems| > 0)
    ensures var urls := NormalizeImageUrls(map["imageUrl" := legacy]);
      |urls| > 0 && RawPrimaryUrl([], legacy) == Some(urls[0])
  {
    var data := map["imageUrl" := legacy];
    assert Field(data, "imageUrls") == Undefined;
    assert Field(data, "imageUrl") == legacy;
  }
}

=== FILE: profile_actions.dfy ===
/**
 * The server action `updateShippingAddress`: its server-side address schema, the fixed order of
 * its pre-transaction checks, and the read-reconcile-write of the user's address book.
 *
 * The Admin SDK handle, `verifyIdToken`, the store and the server clock are parameters: an
 * `adminReady` flag, a `verify` function from token to user id, a map from user id to user
 * document, a timestamp `now`, and the error (if any) the store throws at commit.
 */
module ProfileActions {
  import opened Common
  import opened JsText
  import opened JsValues
  import opened Validation
  import opened AddressBook

  // ---------------------------------------------------------------------------
  // The result the action hands back to the form

  datatype Status = Idle | Loading | Success | Error

  /**
   * A text the form state carries: one of the action's fixed messages, named, or a message
   * built at run time. `Render` spells each out.
   */
  datatype Text =
    | Plain(s: string)
    | ServerConfigNotice
    | TokenMissingNotice
    | TokenMissingError
    | AddressIdMissingNotice
    | InvalidTokenNotice
    | ValidationFailedNotice
    | UpdatedNotice
    | UpdatedToast

  const ServerConfigErrorMessage: string :=
    "Critical Server Error: The Firebase Admin SDK failed to initialize on the server. This is usually due to the FIREBASE_SERVICE_ACCOUNT_JSON environment variable not being set correctly. Please check your **SERVER CONSOLE LOGS** (where your Next.js app is running) for detailed error messages from `src/lib/firebase/admin.ts`. Ensure `FIREBASE_SERVICE_ACCOUNT_JSON` is correctly defined in your `.env.local` file (and for deployment, in your hosting environment). The value must be the complete JSON content of your service account key file. Restart your Next.js server after setting/fixing the environment variable."

  function Render(t: Text): string {
    match t
    case Plain(s) => s
    case ServerConfigNotice => ServerConfigErrorMessage
    case TokenMissingNotice => "Authentication token is missing. Please ensure you are logged in."
    case TokenMissingError => "Authentication token is missing."
    case AddressIdMissingNotice => "Address ID is missing. Cannot update."
    case InvalidTokenNotice => "Authentication failed. Invalid or expired session token."
    case ValidationFailedNotice => "Validation failed on server. Please check your inputs."
    case UpdatedNotice => "Address updated successfully!"
    case UpdatedToast => "Address has been updated."
  }

  /** `AddressFormState`; an absent list is the empty list. */
  datatype FormState = FormState(
    status: Status,
    message: Option<Text>,
    generalErrors: seq<Text>,
    idTokenErrors: seq<Text>,
    fieldErrors: seq<Issue>,
    toastMessage: Option<Text>)

  function ConfigErrorState(): FormState {
    FormState(Error, Some(ServerConfigNotice), [ServerConfigNotice], [], [], None)
  }

  function TokenMissingState(): FormState {
    FormState(Error, Some(TokenMissingNotice), [], [TokenMissingError], [], None)
  }

  function AddressIdMissingState(): FormState {
    FormState(Error, Some(AddressIdMissingNotice), [], [], [], None)
  }

  function InvalidTokenState(): FormState {
    FormState(Error, Some(InvalidTokenNotice), [], [], [], None)
  }

  function ValidationFailedState(issues: seq<Issue>): FormState {
    FormState(Error, Some(ValidationFailedNotice), [], [], issues, None)
  }

  /** The state returned from the transaction's `catch`. */
  function TransactionErrorState(message: string): FormState {
    FormState(Error, Some(Plain(message)), [Plain(message)], [], [], None)
  }

  function SuccessState(): FormState {
    FormState(Success, Some(UpdatedNotice), [], [], [], Some(UpdatedToast))
  }

  // ---------------------------------------------------------------------------
  // The submitted form and the server schema

  /** A submitted `FormData`: a missing entry reads as `null`. */
  type FormData = map<string, string>

  function FormGet(form: FormData, name: string): JsValue {
    if name in form then Str(form[name]) else Null
  }

  /** `!idToken` is false: the entry is present and non-empty. */
  predicate TokenPresent(form: FormData) {
    "idToken" in form && form["idToken"] != ""
  }

  /** The object handed to `AddressSchema.safeParse`. */
  datatype RawAddress = RawAddress(
    street: JsValue,
    city: JsValue,
    state: JsValue,
    zip: JsValue,
    country: JsValue,
    isDefault: JsValue)

  function RawFromForm(form: FormData): RawAddress {
    RawAddress(FormGet(form, "street"), FormGet(form, "city"), FormGet(form, "state"),
      FormGet(form, "zip"), FormGet(form, "country"), FormGet(form, "isDefault"))
  }

  const ServerStreetChecks: seq<Check> := [MinLength(3, "Street address is required and must be at least 3 characters."), Max(200)]
  const ServerCityChecks: seq<Check> := [MinLength(1, "City is required."), Max(100)]
  const ServerStateChecks: seq<Check> := [MinLength(1, "State/Province is required."), Max(100)]
  const ServerZipChecks: seq<Check> := [MinLength(3, "ZIP/Postal code is required."), Max(20)]
  const ServerCountryChecks: seq<Check> := [MinLength(1, "Country is required."), Max(100)]

  /** The length bounds every address schema of the application imposes on the five text fields. */
  predicate AddressBoundsHold(street: string, city: string, state: string, zip: string, country: string) {
    && 3 <= |street| <= 200
    && 1 <= |city| <= 100
    && 1 <= |state| <= 100
    && 3 <= |zip| <= 20
    && 1 <= |country| <= 100
  }

  /** The schema's `isDefault` preprocessing: `val === "on" || val === true`. */
  predicate PreprocessIsDefault(v: JsValue) {
    v == Str("on") || v == Bool(true)
  }

  function AddressSchemaIssues(raw: RawAddress): seq<Issue> {
    FieldIssues("street", raw.street, ServerStreetChecks)
    + FieldIssues("city", raw.city, ServerCityChecks)
    + FieldIssues("state", raw.state, ServerStateChecks)
    + FieldIssues("zip", raw.zip, ServerZipChecks)
    + FieldIssues("country", raw.country, ServerCountryChecks)
  }

  /** `AddressSchema.safeParse`, followed by `isDefault || false`. */
  function ParseAddress(raw: RawAddress): (r: Result<AddressEdit, seq<Issue>>)
    ensures r.Ok? <==>
      && raw.street.Str? && raw.city.Str? && raw.state.Str? && raw.zip.Str? && raw.country.Str?
      && AddressBoundsHold(raw.street.s, raw.city.s, raw.state.s, raw.zip.s, raw.country.s)
    ensures r.Ok? ==> r.value == AddressEdit(raw.street.s, raw.city.s, raw.state.s, raw.zip.s,
      raw.country.s, PreprocessIsDefault(raw.isDefault))
    ensures r.Err? ==> r.error != [] && r.error == AddressSchemaIssues(raw)
  {
    var issues := AddressSchemaIssues(raw);
    ServerChecksAreBounds(raw);
    if issues == [] then
      Ok(AddressEdit(raw.street.s, raw.city.s, raw.state.s, raw.zip.s, raw.country.s, PreprocessIsDefault(raw.isDefault)))
    else
      Err(issues)
  }

  lemma ServerChecksAreBounds(raw: RawAddress)
    ensures AddressSchemaIssues(raw) == [] <==>
      && raw.street.Str? && raw.city.Str? && raw.state.Str? && raw.zip.Str? && raw.country.Str?
      && AddressBoundsHold(raw.street.s, raw.city.s, raw.state.s, raw.zip.s, raw.country.s)
  {
    if raw.street.Str? { BoundsAccept("street", raw.street.s, 3, ServerStreetChecks[0].message, 200); }
    if raw.city.Str? { BoundsAccept("city", raw.city.s, 1, ServerCityChecks[0].message, 100); }
    if raw.state.Str? { BoundsAccept("state", raw.state.s, 1, ServerStateChecks[0].message, 100); }
    if raw.zip.Str? { BoundsAccept("zip", raw.zip.s, 3, ServerZipChecks[0].message, 20); }
    if raw.country.Str? { BoundsAccept("country", raw.country.s, 1, ServerCountryChecks[0].message, 100); }
  }

  // ---------------------------------------------------------------------------
  // The store and the transaction

  /** A user document: the address list (possibly absent), its last update time and everything else. */
  datatype UserDoc = UserDoc(
    otherFields: map<string, JsValue>,
    shippingAddresses: Option<Book>,
    updatedAt: Option<int>)

  type Users = map<string, UserDoc>

  /** What the transaction can throw: a `FirebaseError` from the store, or a plain `Error`. */
  datatype Thrown = FirebaseThrown(code: string, message: string) | PlainThrown(message: string)

  predicate Contains(s: string, part: string) {
    exists i :: 0 <= i <= |s| && StartsWith(s[i..], part)
  }

  function UserNotFoundMessage(uid: string): string {
    "User document not found for UID: " + uid + ". Cannot update address."
  }

  const GenericFailureMessage: string := "Failed to update address. Please try again."

  /** The report of a store error, naming its code, the user and the store's own message. */
  function AdminSdkFailureMessage(uid: string, code: string, m: string): string {
    "Firestore Admin SDK error (" + code + ") while updating address for user " + uid + ": " + m + ". Check server logs."
  }

  /** A plain error the transaction itself raises, recognised by a fragment of its text. */
  predicate IsKnownFailure(m: string) {
    Contains(m, "User document not found") || Contains(m, "Address with ID")
  }

  /**
   * The message the `catch` block reports for a thrown error: a store error is reported with its
   * code, a known plain error passes through as it is, and anything else gets the generic message.
   */
  function CaughtMessage(uid: string, t: Thrown): (r: string)
    ensures t.FirebaseThrown? ==> r == AdminSdkFailureMessage(uid, t.code, t.message)
    ensures t.PlainThrown? && IsKnownFailure(t.message) ==> r == t.message
    ensures t.PlainThrown? && !IsKnownFailure(t.message) ==> r == GenericFailureMessage
  {
    match t
    case FirebaseThrown(code, m) => AdminSdkFailureMessage(uid, code, m)
    case PlainThrown(m) =>
      if IsKnownFailure(m) then m else GenericFailureMessage
  }

  /** The user has a document whose address list holds an address with this id. */
  predicate HoldsAddress(users: Users, uid: string, id: string) {
    uid in users && IndexOfId(users[uid].shippingAddresses.GetOr([]), id).Some?
  }

  /** The transaction body: read the user's book, reconcile, and stage the write of the book and `updatedAt`. */
  function RunTransaction(users: Users, uid: string, addressId: string, e: AddressEdit, now: int): (r: Result<Users, Thrown>)
    ensures r.Ok? <==> HoldsAddress(users, uid, addressId)
  {
    if uid !in users then Err(PlainThrown(UserNotFoundMessage(uid)))
    else
      var doc := users[uid];
      match Reconcile(doc.shippingAddresses.GetOr([]), addressId, e)
      case Err(m) => Err(PlainThrown(m))
      case Ok(book) => Ok(users[uid := doc.(shippingAddresses := Some(book), updatedAt := Some(now))])
  }

  datatype UpdateResult = UpdateResult(state: FormState, users: Users)

  /** A request that passed every check before the transaction: the verified user, the address id and the edit. */
  datatype Request = Request(uid: string, addressId: string, edit: AddressEdit)

  /**
   * The checks before the transaction, in the action's order: admin SDK ready, token present,
   * address id present, token verified, fields valid. The first failure is the answer.
   */
  function Precheck(adminReady: bool, verify: string -> Option<string>, addressId: Option<string>, form: FormData)
    : (r: Result<Request, FormState>)
    ensures r.Ok? <==>
      && adminReady
      && TokenPresent(form)
      && addressId.Some? && addressId.value != ""
      && verify(form["idToken"]).Some?
      && ParseAddress(RawFromForm(form)).Ok?
    ensures r.Ok? ==>
      r.value == Request(verify(form["idToken"]).value, addressId.value, ParseAddress(RawFromForm(form)).value)
    ensures r.Err? ==> r.error.status == Error
  {
    if !adminReady then Err(ConfigErrorState())
    else if !TokenPresent(form) then Err(TokenMissingState())
    else if addressId.None? || addressId.value == "" then Err(AddressIdMissingState())
    else
      match verify(form["idToken"])
      case None => Err(InvalidTokenState())
      case Some(uid) =>
        match ParseAddress(RawFromForm(form))
        case Err(issues) => Err(ValidationFailedState(issues))
        case Ok(e) => Ok(Request(uid, addressId.value, e))
  }

  /** The transaction and its commit, with the error a failed commit throws as a parameter. */
  function Commit(users: Users, req: Request, now: int, commitFault: Option<Thrown>): (r: UpdateResult)
    ensures r.state.status == Success || r.state.status == Error
    ensures r.state.status == Error ==> r.users == users
    ensures r.state.status == Success <==> HoldsAddress(users, req.uid, req.addressId) && commitFault.None?
  {
    match RunTransaction(users, req.uid, req.addressId, req.edit, now)
    case Err(t) => UpdateResult(TransactionErrorState(CaughtMessage(req.uid, t)), users)
    case Ok(written) =>
      match commitFault
      case Some(t) => UpdateResult(TransactionErrorState(CaughtMessage(req.uid, t)), users)
      case None => UpdateResult(SuccessState(), written)
  }

  /** `updateShippingAddress(prevState, addressId, formData)`. */
  function UpdateShippingAddress(
    adminReady: bool,
    verify: string -> Option<string>,
    users: Users,
    addressId: Option<string>,
    form: FormData,
    now: int,
    commitFault: Option<Thrown>): (r: UpdateResult)
    ensures r.state.status == Success || r.state.status == Error
    ensures r.state.status == Error ==> r.users == users
    ensures r.state.status == Success <==>
      && adminReady
      && TokenPresent(form)
      && addressId.Some? && addressId.value != ""
      && verify(form["idToken"]).Some?
      && ParseAddress(RawFromForm(form)).Ok?
      && HoldsAddress(users, verify(form["idToken"]).value, addressId.value)
      && commitFault.None?
  {
    match Precheck(adminReady, verify, addressId, form)
    case Err(state) => UpdateResult(state, users)
    case Ok(req) => Commit(users, req, now, commitFault)
  }

  // ---------------------------------------------------------------------------
  // Properties of the action

  /**
   * The checks run in a fixed order: admin configuration, token present, address id present,
   * token verified, field validation. The first failing check decides the answer, whatever the
   * later inputs are, and nothing is written.
   */
  lemma UpdateCheckOrder(
    adminReady: bool, verify: string -> Option<string>, users: Users, addressId: Option<string>,
    form: FormData, now: int, commitFault: Option<Thrown>)
    ensures var r := UpdateShippingAddress(adminReady, verify, users, addressId, form, now, commitFault);
      && (!adminReady ==> r == UpdateResult(ConfigErrorState(), users))
      && (adminReady && !TokenPresent(form) ==> r == UpdateResult(TokenMissingState(), users))
      && (adminReady && TokenPresent(form) && (addressId.None? || addressId.value == "") ==>
            r == UpdateResult(AddressIdMissingState(), users))
      && (adminReady && TokenPresent(form) && addressId.Some? && addressId.value != ""
            && verify(form["idToken"]).None?
          ==> r == UpdateResult(InvalidTokenState(), users))
      && (adminReady && TokenPresent(form) && addressId.Some? && addressId.value != ""
            && verify(form["idToken"]).Some? && AddressSchemaIssues(RawFromForm(form)) != []
          ==> r == UpdateResult(ValidationFailedState(AddressSchemaIssues(RawFromForm(form))), users))
  {
  }

  /** A verified request for an address id the user's book lacks reports "Address with ID … not found" and writes nothing. */
  lemma UpdateReportsMissingAddress(
    verify: string -> Option<string>, users: Users, id: string, form: FormData, now: int,
    commitFault: Option<Thrown>, uid: string)
    requires TokenPresent(form) && id != ""
    requires verify(form["idToken"]) == Some(uid)
    requires ParseAddress(RawFromForm(form)).Ok?
    requires uid in users
    requires forall j :: 0 <= j < |users[uid].shippingAddresses.GetOr([])| ==> users[uid].shippingAddresses.GetOr([])[j].id != id
    ensures UpdateShippingAddress(true, verify, users, Some(id), form, now, commitFault)
      == UpdateResult(TransactionErrorState(AddressNotFoundMessage(id)), users)
  {
    var e := ParseAddress(RawFromForm(form)).value;
    var msg := AddressNotFoundMessage(id);
    assert Reconcile(users[uid].shippingAddresses.GetOr([]), id, e) == Err(msg);
    assert RunTransaction(users, uid, id, e, now) == Err(PlainThrown(msg));
    KnownFailuresPassThrough(uid, id);
  }

  /** A verified user without a user document is told so and nothing is written. */
  lemma UpdateReportsMissingUser(
    verify: string -> Option<string>, users: Users, id: string, form: FormData, now: int,
    commitFault: Option<Thrown>, uid: string)
    requires TokenPresent(form) && id != ""
    requires verify(form["idToken"]) == Some(uid)
    requires ParseAddress(RawFromForm(form)).Ok?
    requires uid !in users
    ensures UpdateShippingAddress(true, verify, users, Some(id), form, now, commitFault)
      == UpdateResult(TransactionErrorState(UserNotFoundMessage(uid)), users)
  {
    var e := ParseAddress(RawFromForm(form)).value;
    var msg := UserNotFoundMessage(uid);
    assert RunTransaction(users, uid, id, e, now) == Err(PlainThrown(msg));
    KnownFailuresPassThrough(uid, id);
  }

  /**
   * A successful update writes only the verified user's document, and of it only
   * `shippingAddresses` (the reconciled book, with exactly one default) and `updatedAt`.
   */
  lemma UpdateSuccessWrite(
    verify: string -> Option<string>, users: Users, id: string, form: FormData, now: int, uid: string)
    requires TokenPresent(form) && verify(form["idToken"]) == Some(uid)
    requires id != "" && ParseAddress(RawFromForm(form)).Ok?
    requires HoldsAddress(users, uid, id)
    ensures var r := UpdateShippingAddress(true, verify, users, Some(id), form, now, None);
      && r.state == SuccessState()
      && uid in users && r.users.Keys == users.Keys
      && (forall other :: other in users && other != uid ==> r.users[other] == users[other])
      && r.users[uid].otherFields == users[uid].otherFields
      && r.users[uid].updatedAt == Some(now)
      && r.users[uid].shippingAddresses
         == Some(Reconcile(users[uid].shippingAddresses.GetOr([]), id, ParseAddress(RawFromForm(form)).value).value)
      && ExactlyOneDefault(r.users[uid].shippingAddresses.value)
  {
    var e := ParseAddress(RawFromForm(form)).value;
    var req := Request(uid, id, e);
    assert Precheck(true, verify, Some(id), form) == Ok(req);
    var book := Reconcile(users[uid].shippingAddresses.GetOr([]), id, e);
    assert book.Ok?;
    var written := users[uid := users[uid].(shippingAddresses := Some(book.value), updatedAt := Some(now))];
    assert RunTransaction(users, uid, id, e, now) == Ok(written);
    assert Commit(users, req, now, None) == UpdateResult(SuccessState(), written);
  }

  /** The two errors the transaction raises itself reach the form word for word. */
  lemma KnownFailuresPassThrough(uid: string, id: string)
    ensures CaughtMessage(uid, PlainThrown(UserNotFoundMessage(uid))) == UserNotFoundMessage(uid)
    ensures CaughtMessage(uid, PlainThrown(AddressNotFoundMessage(id))) == AddressNotFoundMessage(id)
  {
    var u := UserNotFoundMessage(uid);
    assert Contains(u, "User document not found") by {
      assert u[0..][..|"User document not found"|] == "User document not found";
    }
    var a := AddressNotFoundMessage(id);
    assert Contains(a, "Address with ID") by {
      assert a[0..][..|"Address with ID"|] == "Address with ID";
    }
  }

  /**
   * A store error at commit, after every check passed and the address was found, is reported
   * with the store's code and message, and nothing is written.
   */
  lemma UpdateReportsStoreError(
    verify: string -> Option<string>, users: Users, id: string, form: FormData, now: int,
    uid: string, code: string, m: string)
    requires TokenPresent(form) && verify(form["idToken"]) == Some(uid)
    requires id != "" && ParseAddress(RawFromForm(form)).Ok?
    requires HoldsAddress(users, uid, id)
    ensures UpdateShippingAddress(true, verify, users, Some(id), form, now, Some(FirebaseThrown(code, m)))
      == UpdateResult(TransactionErrorState(AdminSdkFailureMessage(uid, code, m)), users)
  {
  }
}

=== FILE: validation.dfy ===
/**
 * The fragment of zod's string schemas the forms use: `z.string()` with `.min`, `.max` and
 * `.regex` checks, reporting one issue per failing check, in the order the checks are written.
 */
module Validation {
  import opened JsText
  import opened JsValues

  /** One validation issue: the path of the offending field and its message (a `ZodIssue`). */
  datatype Issue = Issue(path: seq<string>, message: string)

  /**
   * The only regular-expression shape the forms use: a literal prefix followed by a run of
   * `minDigits` to `maxDigits` ASCII digits, anchored at both ends (`^\+\d{1,3}$`, `^\d{7,15}$`).
   */
  datatype DigitRun = DigitRun(prefix: string, minDigits: nat, maxDigits: nat)

  datatype Check =
    | MinLength(n: nat, message: string)
    | MaxLength(n: nat, message: string)
    | Pattern(run: DigitRun, message: string)

  predicate MatchesRun(run: DigitRun, s: string) {
    && StartsWith(s, run.prefix)
    && run.minDigits <= |s| - |run.prefix| <= run.maxDigits
    && AllDigits(s[|run.prefix|..])
  }

  predicate Holds(c: Check, s: string) {
    match c
    case MinLength(n, _) => |s| >= n
    case MaxLength(n, _) => |s| <= n
    case Pattern(run, _) => MatchesRun(run, s)
  }

  /** zod's default message for a failed `.max(n)`. */
  function TooBigMessage(n: nat): string {
    "String must contain at most " + NatToString(n) + " character(s)"
  }

  function NatToString(n: nat): string
    decreases n
  {
    if n < 10 then [DigitChar(n)] else NatToString(n / 10) + [DigitChar(n % 10)]
  }

  function DigitChar(d: nat): char
    requires d < 10
  {
    ['0', '1', '2', '3', '4', '5', '6', '7', '8', '9'][d]
  }

  /** `z.string().max(n)` without a custom message. */
  function Max(n: nat): Check {
    MaxLength(n, TooBigMessage(n))
  }

  /**
   * The issues a string value draws from `checks`, all at `[field]`: one per failing check, in
   * order, as `IssuesFollowFailingChecks` states.
   */
  function StringIssues(field: string, s: string, checks: seq<Check>): (r: seq<Issue>)
    ensures r == [] <==> forall i :: 0 <= i < |checks| ==> Holds(checks[i], s)
    ensures |r| <= |checks|
    ensures forall k :: 0 <= k < |r| ==> r[k].path == [field]
  {
    if |checks| == 0 then []
    else
      var rest := StringIssues(field, s, checks[1..]);
      assert forall i :: 1 <= i < |checks| ==> checks[i] == checks[1..][i - 1];
      if Holds(checks[0], s) then rest else [Issue([field], checks[0].message)] + rest
  }

  /** Every failing check is reported on the field with its own message. */
  lemma {:induction false} FailingChecksReported(field: string, s: string, checks: seq<Check>)
    ensures var r := StringIssues(field, s, checks);
      forall i :: 0 <= i < |checks| && !Holds(checks[i], s) ==> Issue([field], checks[i].message) in r
  {
    if |checks| > 0 {
      var rest := StringIssues(field, s, checks[1..]);
      FailingChecksReported(field, s, checks[1..]);
      var r := StringIssues(field, s, checks);
      assert r == if Holds(checks[0], s) then rest else [Issue([field], checks[0].message)] + rest;
      forall i | 1 <= i < |checks| && !Holds(checks[i], s)
        ensures Issue([field], checks[i].message) in r
      {
        assert checks[i] == checks[1..][i - 1];
      }
    }
  }

  /** `issue` is the report of one of the checks that `s` fails. */
  predicate FromFailingCheck(field: string, s: string, checks: seq<Check>, issue: Issue) {
    exists i :: 0 <= i < |checks| && !Holds(checks[i], s) && issue == Issue([field], checks[i].message)
  }

  /** Every reported issue carries the message of some failing check. */
  lemma {:induction false} IssuesComeFromFailingChecks(field: string, s: string, checks: seq<Check>)
    ensures forall k :: 0 <= k < |StringIssues(field, s, checks)| ==>
      FromFailingCheck(field, s, checks, StringIssues(field, s, checks)[k])
  {
    if |checks| > 0 {
      var tail := checks[1..];
      var rest := StringIssues(field, s, tail);
      IssuesComeFromFailingChecks(field, s, tail);
      var r := StringIssues(field, s, checks);
      assert r == if Holds(checks[0], s) then rest else [Issue([field], checks[0].message)] + rest;
      forall k | 0 <= k < |r|
        ensures FromFailingCheck(field, s, checks, r[k])
      {
        if !Holds(checks[0], s) && k == 0 {
          assert r[0] == Issue([field], checks[0].message);
        } else {
          var j := if Holds(checks[0], s) then k else k - 1;
          assert 0 <= j < |rest| && r[k] == rest[j];
          assert FromFailingCheck(field, s, tail, rest[j]);
          var i :| 0 <= i < |tail| && !Holds(tail[i], s) && rest[j] == Issue([field], tail[i].message);
          assert checks[i + 1] == tail[i];
        }
      }
    }
  }

  /** `r[k]` is the issue of the failing check `idx[k]`, for every `k`. */
  predicate IssuesOfChecks(r: seq<Issue>, field: string, s: string, checks: seq<Check>, idx: seq<nat>) {
    && |idx| == |r|
    && forall k :: 0 <= k < |idx| ==>
         idx[k] < |checks| && !Holds(checks[idx[k]], s) && r[k] == Issue([field], checks[idx[k]].message)
  }

  predicate StrictlyIncreasing(idx: seq<nat>) {
    forall k, l :: 0 <= k < l < |idx| ==> idx[k] < idx[l]
  }

  /** Every check that `s` fails is listed in `idx`. */
  predicate ListsEveryFailure(s: string, checks: seq<Check>, idx: seq<nat>) {
    forall i :: 0 <= i < |checks| && !Holds(checks[i], s) ==> i in idx
  }

  /**
   * `r` reports the checks at `idx` and nothing else: `idx` lists, in increasing order and each
   * once, exactly the indices of the checks that `s` fails, and `r[k]` is the issue of `idx[k]`.
   */
  predicate ReportsFailingInOrder(r: seq<Issue>, field: string, s: string, checks: seq<Check>, idx: seq<nat>) {
    IssuesOfChecks(r, field, s, checks, idx) && StrictlyIncreasing(idx) && ListsEveryFailure(s, checks, idx)
  }

  /** Every index moved one place on, as when a check is put in front of the others. */
  function Shift(idx: seq<nat>): (r: seq<nat>)
    ensures |r| == |idx|
    ensures forall k :: 0 <= k < |idx| ==> r[k] == idx[k] + 1
  {
    seq(|idx|, k requires 0 <= k < |idx| => idx[k] + 1)
  }

  /** A passing first check adds no issue: the tail's report shifts by one. */
  lemma PassingHeadReports(field: string, s: string, checks: seq<Check>, rest: seq<Issue>, idx: seq<nat>)
    requires |checks| > 0 && Holds(checks[0], s)
    requires ReportsFailingInOrder(rest, field, s, checks[1..], idx)
    ensures ReportsFailingInOrder(rest, field, s, checks, Shift(idx))
  {
    var tail := checks[1..];
    var sh := Shift(idx);
    forall k | 0 <= k < |sh|
      ensures sh[k] < |checks| && !Holds(checks[sh[k]], s) && rest[k] == Issue([field], checks[sh[k]].message)
    {
      assert checks[sh[k]] == tail[idx[k]];
    }
    forall i | 0 <= i < |checks| && !Holds(checks[i], s)
      ensures i in sh
    {
      assert checks[i] == tail[i - 1];
      var k :| 0 <= k < |idx| && idx[k] == i - 1;
      assert sh[k] == i;
    }
  }

  /** A failing first check adds its issue in front of the tail's report, shifted by one. */
  lemma FailingHeadReports(field: string, s: string, checks: seq<Check>, rest: seq<Issue>, idx: seq<nat>)
    requires |checks| > 0 && !Holds(checks[0], s)
    requires ReportsFailingInOrder(rest, field, s, checks[1..], idx)
    ensures ReportsFailingInOrder([Issue([field], checks[0].message)] + rest, field, s, checks, [0] + Shift(idx))
  {
    FailingHeadIssues(field, s, checks, rest, idx);
    ShiftAfterZeroIncreasing(idx);
    FailingHeadListed(s, checks, idx);
  }

  /** The failing first check's issue, then the tail's issues at their shifted indices. */
  lemma FailingHeadIssues(field: string, s: string, checks: seq<Check>, rest: seq<Issue>, idx: seq<nat>)
    requires |checks| > 0 && !Holds(checks[0], s)
    requires IssuesOfChecks(rest, field, s, checks[1..], idx)
    ensures IssuesOfChecks([Issue([field], checks[0].message)] + rest, field, s, checks, [0] + Shift(idx))
  {
    var tail := checks[1..];
    var r := [Issue([field], checks[0].message)] + rest;
    var sh := Shift(idx);
    var all := [0] + sh;
    forall k | 1 <= k < |all|
      ensures all[k] < |checks| && !Holds(checks[all[k]], s) && r[k] == Issue([field], checks[all[k]].message)
    {
      assert all[k] == sh[k - 1] && r[k] == rest[k - 1];
      assert checks[sh[k - 1]] == tail[idx[k - 1]];
    }
  }

  /** Putting index 0 in front of a shifted increasing list keeps it increasing. */
  lemma ShiftAfterZeroIncreasing(idx: seq<nat>)
    requires StrictlyIncreasing(idx)
    ensures StrictlyIncreasing([0] + Shift(idx))
  {
    var sh := Shift(idx);
    var all := [0] + sh;
    forall k, l | 0 <= k < l < |all|
      ensures all[k] < all[l]
    {
      assert all[l] == sh[l - 1];
      if k > 0 {
        assert all[k] == sh[k - 1];
      }
    }
  }

  /** A failing check is the first one or, shifted, a failing check of the tail. */
  lemma FailingHeadListed(s: string, checks: seq<Check>, idx: seq<nat>)
    requires |checks| > 0
    requires ListsEveryFailure(s, checks[1..], idx)
    ensures ListsEveryFailure(s, checks, [0] + Shift(idx))
  {
    var tail := checks[1..];
    var all := [0] + Shift(idx);
    forall i | 0 <= i < |checks| && !Holds(checks[i], s)
      ensures i in all
    {
      if i > 0 {
        assert checks[i] == tail[i - 1];
        var k :| 0 <= k < |idx| && idx[k] == i - 1;
        assert all[k + 1] == i;
      }
    }
  }

  /** The indices of the checks behind the issues of `StringIssues`, in check order. */
  lemma {:induction false} FailingIndices(field: string, s: string, checks: seq<Check>) returns (idx: seq<nat>)
    ensures ReportsFailingInOrder(StringIssues(field, s, checks), field, s, checks, idx)
  {
    if |checks| == 0 {
      idx := [];
    } else {
      var tail := checks[1..];
      var rest := StringIssues(field, s, tail);
      var idx' := FailingIndices(field, s, tail);
      if Holds(checks[0], s) {
        PassingHeadReports(field, s, checks, rest, idx');
        idx := Shift(idx');
      } else {
        FailingHeadReports(field, s, checks, rest, idx');
        idx := [0] + Shift(idx');
      }
    }
  }

  /** The issues are exactly one per failing check, in the order the checks are written. */
  lemma IssuesFollowFailingChecks(field: string, s: string, checks: seq<Check>)
    ensures exists idx :: ReportsFailingInOrder(StringIssues(field, s, checks), field, s, checks, idx)
  {
    var idx := FailingIndices(field, s, checks);
  }

  /** zod's message for a value that is not a string. */
  function InvalidTypeMessage(v: JsValue): string {
    if v.Undefined? then "Required" else "Expected string, received " + TypeName(v)
  }

  /** The issues `z.string()` followed by `checks` reports for the raw value `v` of `field`. */
  function FieldIssues(field: string, v: JsValue, checks: seq<Check>): (r: seq<Issue>)
    ensures r == [] <==> v.Str? && forall i :: 0 <= i < |checks| ==> Holds(checks[i], v.s)
    ensures forall k :: 0 <= k < |r| ==> r[k].path == [field]
  {
    if v.Str? then StringIssues(field, v.s, checks) else [Issue([field], InvalidTypeMessage(v))]
  }

  /** A string field accepted exactly when its length lies in `lo..hi` (a `.min(lo, message).max(hi)` pair). */
  lemma BoundsAccept(field: string, s: string, lo: nat, message: string, hi: nat)
    ensures StringIssues(field, s, [MinLength(lo, message), Max(hi)]) == [] <==> lo <= |s| <= hi
  {
    var checks := [MinLength(lo, message), Max(hi)];
    assert Holds(checks[0], s) <==> lo <= |s|;
    assert Holds(checks[1], s) <==> |s| <= hi;
  }

  /** Some issue in the list is reported on `path`. */
  predicate ReportedOn(issues: seq<Issue>, path: seq<string>) {
    exists i :: 0 <= i < |issues| && issues[i].path == path
  }

  lemma ReportedOnConcat(a: seq<Issue>, b: seq<Issue>, path: seq<string>)
    ensures ReportedOn(a + b, path) <==> ReportedOn(a, path) || ReportedOn(b, path)
  {
    if ReportedOn(a + b, path) {
      var i :| 0 <= i < |a + b| && (a + b)[i].path == path;
      if i >= |a| {
        assert b[i - |a|] == (a + b)[i];
      } else {
        assert a[i] == (a + b)[i];
      }
    }
    if ReportedOn(a, path) {
      var i :| 0 <= i < |a| && a[i].path == path;
      assert (a + b)[i] == a[i];
    }
    if ReportedOn(b, path) {
      var i :| 0 <= i < |b| && b[i].path == path;
      assert (a + b)[|a| + i] == b[i];
    }
  }

  /** A string field's checks report on the field exactly when they report anything. */
  lemma ReportedOnOwnField(field: string, s: string, checks: seq<Check>)
    ensures ReportedOn(StringIssues(field, s, checks), [field]) <==> StringIssues(field, s, checks) != []
  {
    var r := StringIssues(field, s, checks);
    if r != [] {
      assert r[0].path == [field];
    }
  }
}
